=== FILE: README.md ===
# Virtual makeup and beauty-advice core, in Dafny

This project models the three parts of the virtual-makeup application that
hold sequential logic:

- **The makeup painter** (`MakeupProcessor.applyMakeup`, `applyLipstick`,
  `applyEyeshadow`). Given the faces a landmark detector found (each a map
  from annotation name to points) and the `MakeupOptions`, it decides:
  - whether a canvas is produced;
  - which closed polygons are outlined (the lips as `lipsUpperOuter` then
    `lipsLowerOuter`; the eyelids as `leftEyeUpper0` then `rightEyeUpper0`);
  - the order they are filled in, and the colour and alpha of each fill.

  The canvas is a list of 2D-context commands. An abstract interpreter
  (`Canvas.Run`) reads them back into "what was painted, in what order, at
  what alpha".
- **The webcam lifecycle** (`WebcamStream`). It has two fields, the held
  stream and `isInitialized`, driven by `start`, `stop`, `isActive` and
  `switchCamera`. The browser (`getUserMedia`, `video.play()`) is an input
  that says what those calls did. Each operation returns the new fields, the
  constraints requested from the device, the stream released, and the toast
  shown.
- **The server's request handlers** for consultation history, login,
  registration, beauty advice and consultation deletion:
  - their ordered validation chains, which pick the status and error text;
  - the JavaScript built-ins those chains depend on: truthiness, `typeof`,
    `parseInt`, `split(',')[1]`, and decimal rendering in a template literal;
  - the effect on two tables (users, consultations), which are modelled as
    sequences of rows;
  - the newest-first, five-field projection of a user's consultations.

  The image analysis, the language-model reply, the base64 decoder and the
  user get-or-create step of the advice handler are inputs saying what
  those calls answered.

Modules: `Base` (Option, Result), `Js`, `Canvas`, `Makeup`, `Webcam`,
`Store` and `Routes`, one file each.

Behaviour of the code that the model keeps as written:

- An unreadable landmark group makes the painter throw, and the call then
  returns no canvas. For the eyelids, a missing or empty `leftEyeUpper0` or
  `rightEyeUpper0` throws when its first point is read. For the lips, a
  missing `lipsUpperOuter` throws at `concat`. A missing `lipsLowerOuter`
  makes `concat` append `undefined`, and the first read of that `undefined`
  throws: at `moveTo` when `lipsUpperOuter` is empty, otherwise in the
  `lineTo` loop.
  Two empty lip groups throw when the first point is read. One empty lip
  group beside a non-empty one throws nothing: the outline is just the
  other group.
- No faces gives `null`.
- Opacity and colour are passed to the context unchecked.
- The lip outline is `lipsUpperOuter` followed by `lipsLowerOuter`, each in
  its own order.
- Every outline repeats its first vertex, because the code calls `moveTo`
  on it and then `lineTo` on every point.

The model also states, as written, that a rejected `video.play()` leaves
the granted stream held while the webcam is not initialised. A later `start`
that is granted a new stream overwrites the held one without stopping its
tracks, so that stream leaks; "## Findings" records this with a corrected
`start`.

## Model

| member | source | states |
|---|---|---|
| Makeup.FaceRegions | client/src/lib/makeup.ts:55-97 | One face yields the lip polygon (upper outer then lower outer lip) when lipstick is set. It then yields the left and the right eyelid polygons when eyeshadow is set, and nothing for an absent option. Lipstick fails exactly when either lip group is missing or both are empty. Eyeshadow fails exactly when either eyelid group is missing or empty. A failing lipstick is reported first; otherwise the failure names eyeshadow. |
| Makeup.BuildRegions | client/src/lib/makeup.ts:43-50 | Faces are handled in detection order. The call succeeds exactly when every face can be painted. Otherwise it reports the first face that throws and the painter that throws on it, and every earlier face could be painted. |
| Makeup.ApplyMakeup | client/src/lib/makeup.ts:24-53 | No model, no faces or no 2D context gives `null`. Otherwise it returns a canvas exactly when every face can be painted, and throws exactly when some face cannot. The canvas has the element's width and height, and its first command draws the source image. A throw names the first faulty face. |
| Makeup.RunFillRegion | client/src/lib/makeup.ts:63-73 | Filling one region leaves the path as the region's closed outline (first vertex, then every vertex). It paints that outline in the zone's colour, at the zone's opacity when that lies in [0, 1] and otherwise at 1. It leaves the global alpha at 1. |
| Makeup.RenderedPaints | client/src/lib/makeup.ts:40-97 | A returned canvas shows the source image at alpha 1 and then one fill per built region, in region order, with each zone's colour. Each fill's alpha is the zone's opacity when that lies in [0, 1], otherwise 1. Its global alpha is 1 at the end. |
| Makeup.RegionsFaceByFace | client/src/lib/makeup.ts:43-50 | Region `j` of face `k` is region `k·n + j` of the whole list, where `n` is the number of regions per face. |
| Makeup.BlockPaints | client/src/lib/makeup.ts:43-50 | Fill `j` of face `k` is painted at position `1 + k·n + j` of the canvas. |
| Makeup.FacePaintOrder | client/src/lib/makeup.ts:43-97 | Within each face's block, the lip fill comes first and outlines `lipsUpperOuter ++ lipsLowerOuter`. The left then the right eyelid fills follow, outlining `leftEyeUpper0` and `rightEyeUpper0`. Each is closed and has the zone's colour, and the zone's opacity as alpha when that lies in [0, 1], otherwise alpha 1. |
| Makeup.FillCount | client/src/lib/makeup.ts:43-50 | The number of fills is faces × (1 if lipstick is set + 2 if eyeshadow is set). |
| Makeup.NoOptionsPaintNothing | client/src/lib/makeup.ts:44-49 | With neither option set, a canvas holds the source drawing and nothing else. |
| Makeup.RenderedResetsAlpha | client/src/lib/makeup.ts:70-73 | In the command list, every fill is immediately followed by setting the global alpha back to 1. |
| Webcam.Resolve | client/src/lib/webcam.ts:24-31 | An omitted or zero width, height or frame rate falls back to 1280, 720 and 30. An omitted facing mode is `user`. |
| Webcam.ErrorMessage | client/src/lib/webcam.ts:54-64 | The permission text is given exactly for NotAllowedError or PermissionDeniedError, the no-camera text exactly for NotFoundError, and the in-use text exactly for NotReadableError. Anything else, including a non-Error, gets the generic text. |
| Webcam.Start | client/src/lib/webcam.ts:19-75 | When already initialised, it returns true, requests nothing and changes nothing. It returns true exactly when `getUserMedia` exists, grants a stream and `play()` succeeds; the result agrees with `isInitialized`. Without `getUserMedia` nothing is requested. A refusal keeps the old stream; a granted stream is kept even when `play()` fails. A failure shows the destructive "Camera Error" toast. Its text is the error message for the cause: a plain `Error` when `getUserMedia` is missing, otherwise the refusal's error or the `play()` rejection's error. |
| Webcam.Stop | client/src/lib/webcam.ts:77-86 | The held stream is released and both fields are cleared. Without a stream it does nothing. |
| Webcam.Flip | client/src/lib/webcam.ts:104-106 | The requested facing mode is `environment` exactly when the current track reports `user`. |
| Webcam.SwitchCamera | client/src/lib/webcam.ts:96-107 | It performs `stop` first. Any device request it makes asks for the flipped facing mode. |
| Webcam.StartReleasingHeld | client/src/lib/webcam.ts:19-75 | The corrected `start`. Every stream held before the call is either still held after it or reported released. Where no stream is held it is exactly the code's `start`. Its result, and the rule that an initialised webcam holds a stream, are as for `start`. |
| Webcam.RetryDropsHeldStream | client/src/lib/webcam.ts:40-46 | After a rejected `play()` holds stream `s0`, a granted and played retry holds `s1` instead. The next `stop` releases only `s1`, so `s0` is never released. |
| Webcam.RetryReleasesHeldStream | client/src/lib/webcam.ts:40-46 | With the corrected `start`, the same retry releases `s0` and then holds `s1` while initialised. |
| Webcam.ActiveIsInitialized | client/src/lib/webcam.ts:92-94 | For every reachable webcam, `isActive()` is exactly `isInitialized`. |
| Webcam.StartActivates | client/src/lib/webcam.ts:40-52 | After `start`, `isActive()` holds exactly when `start` returned true. |
| Webcam.StartIdempotent | client/src/lib/webcam.ts:20-22 | A `start` after a successful one changes nothing and asks the device for nothing. |
| Webcam.StopIdempotent | client/src/lib/webcam.ts:77-86 | Calling `stop` twice is the same as calling it once, and the second call releases nothing. |
| Webcam.RejectedPlayHoldsStream | client/src/lib/webcam.ts:40-46 | After a rejected `play()`, the granted stream is held while the webcam is inactive. The next `stop` releases it. |
| Webcam.StartStopStart | client/src/lib/webcam.ts:19-86 | `stop` after a successful `start` releases the granted stream. A later `start` asks the device again with the same constraints. |
| Webcam.SwitchRequestsOtherSide | client/src/lib/webcam.ts:96-107 | `switchCamera` releases the held stream and asks for the other facing mode, with default size and rate. It succeeds exactly when the browser grants and plays. On success the new stream is held, the webcam is initialised and the granted toast is shown. On failure the webcam is inactive and the "Camera Error" toast gives the error message for the cause. |
| Webcam.OperationsKeepValid | client/src/lib/webcam.ts:19-107 | Every operation keeps the rule that an initialised webcam holds a stream. |
| Js.Split | server/routes.ts:210 | `split` gives at least one piece, and no piece contains the separator. |
| Js.JoinSplit | server/routes.ts:210 | Joining the pieces of `split` with the separator gives back the string. |
| Js.SplitSecond | server/routes.ts:210 | `split(',')[1]` exists exactly when the string contains a comma. It is then the text between the first comma and the next one, or the end. |
| Js.ParseIntShowInt | server/routes.ts:66 | `parseInt` reads back every integer's decimal rendering. |
| Js.ParseIntIgnoresTrailingText | server/routes.ts:333 | `parseInt` reads the leading integer and ignores the text after it, when that text does not start with a digit and, after a bare `0`, does not start with `x` or `X` (a hex prefix). |
| Js.NoDigitIsNaN | server/routes.ts:66-70 | Text with no decimal digit at all parses to NaN. |
| Store.FindUser | server/routes.ts:143-145 | A lookup by email or by id finds a user exactly when one has that key, and the user it returns has the key. |
| Store.FindUserFirst | server/routes.ts:76-78 | The user returned is the first row, in table order, that matches the key. |
| Store.IndexOfConsultation | server/routes.ts:341-344 | The lookup by id finds a consultation exactly when one has that id. |
| Store.OwnedBy | server/routes.ts:98-101 | The query keeps each of the user's consultations as many times as it occurs, and nothing else. |
| Store.NewestFirst | server/routes.ts:102 | The ordering is by `createdAt` descending and is a permutation of its input. |
| Store.Project | server/routes.ts:107-114 | Each consultation maps to its id, image URL, prompt, advice and creation time, in the same order. |
| Routes.Login | server/routes.ts:128-151 | A falsy email gets 400 "Email is required", checked before the type; a non-string gets 400 "Invalid input type". An unknown email gets 404. It returns 200 exactly when a user has the email, and returns that user. |
| Routes.Register | server/routes.ts:159-187 | Presence of both fields is checked, then both types, then uniqueness of the email. It returns 201 exactly when both are non-empty strings and the email is new; the user is then appended and returned. Otherwise it returns 400 and the table is unchanged. Unique emails stay unique. |
| Routes.RegisterThenLogin | server/routes.ts:143-187 | After a successful registration, login with the same email returns the new user. |
| Routes.RegisterTwiceRefused | server/routes.ts:174-180 | Registering the same email again gets 400 "User already exists" and changes nothing. |
| Routes.Placeholder | server/routes.ts:83-87 | The auto-created user has the requested id. Its email is `user` and its name `User `, each followed by text from which `parseInt` reads the id back. |
| Routes.PlaceholderEmailsDistinct | server/routes.ts:83-87 | Different ids get different placeholder emails. |
| Routes.HistoryRows | server/routes.ts:98-103 | The rows returned are exactly the user's consultations, newest first. |
| Routes.HistoryFor | server/routes.ts:72-116 | This is the handler after the id has parsed. An unknown id gets a placeholder user, and it fails with 500 "Failed to create user" exactly when that email is taken. Otherwise it returns 200 with the projected newest-first list, adds the placeholder only for an unknown id, and leaves that user findable by id. Unique emails stay unique. |
| Routes.History | server/routes.ts:64-70 | An id that `parseInt` reads as NaN gets 400 "Invalid user ID" and changes nothing. Any other id is handled by the parsed-id handler, whose answer is 200 or 500. |
| Routes.HistoryListsOwnConsultations | server/routes.ts:97-116 | The list a 200 history sends contains every consultation of the user and nothing else, from newest to oldest. |
| Routes.HistoryStable | server/routes.ts:75-94 | When the first request succeeds (the id is known, or its placeholder email is free), asking again gives the same answer and creates no user. |
| Routes.Delete | server/routes.ts:331-353 | A NaN id gets 400 and a missing id gets 404, both changing nothing. An id that parses and exists gets 200. Then exactly one consultation with that id is removed and the users are untouched. |
| Routes.DeleteTwiceNotFound | server/routes.ts:341-350 | With distinct ids, deleting the same consultation again gets 404. |
| Routes.Classify | server/routes.ts:199-323 | Checks run in order, and the first failing one decides: presence of image and prompt, that the image is a string, the `data:image/` prefix, a non-empty payload after the first comma, and the 5 MiB cap. An admissible request then gets, each exactly under its condition and in this order: a user-step fault, an analysis-call fault, a null analysis, an analysis error carrying the error text, no faces (null or zero), and an AI fault (no text, empty text or a failed save). Advice is given exactly when everything passes. |
| Routes.Respond | server/routes.ts:200-326 | A verdict gets 200 exactly for advice and 500 exactly for the faults that come from a throw. Every other verdict gets 400 with an error body. |
| Routes.AdviceErrorTexts | server/routes.ts:199-323 | The error text of each refusal, from the request: missing input, a non-string image, bad format, bad data, a failed user step, a throwing analysis call, a null analysis, the analysis error with its text, no face, and an AI fault. A payload over 5 MiB gets 400 "Image size must be less than 5MB". |
| Routes.BeautyAdvice | server/routes.ts:195-328 | A consultation is stored exactly when the response is 200. It holds the image and prompt as sent and the advice returned. A request refused by the input checks stores nothing and gets 400 or 500. A request that passes every check, with the user step done, an error-free analysis finding a face, a non-empty reply and a completed save, gets 200 with that advice, and its consultation is stored. |
| Routes.RefusalIgnoresServices | server/routes.ts:199-219 | A request refused by the input checks gets the same answer whatever the services would have said. |
| Routes.SizeLimitBoundary | server/routes.ts:216-219 | A payload of exactly 5 MiB passes the size check, and one byte more gets 400 "Image size must be less than 5MB". |

## Findings

| source | as written | input that shows it | evidently intended | confidence | as-written member | corrected member |
|---|---|---|---|---|---|---|
| client/src/lib/webcam.ts:40-46 | After a rejected `play()`, `this.stream` keeps the granted stream while `isInitialized` stays false. The next `start` assigns the new stream to `this.stream` without stopping the held one's tracks. | `start()` with `getUserMedia` granting `s0` and `play()` rejecting, then `start()` granting `s1` with `play()` succeeding: `s0` is overwritten and its tracks are never stopped. | A held stream is stopped before a new one is requested, so every stream acquired is eventually released. | medium, not executed | Webcam.RetryDropsHeldStream | Webcam.StartReleasingHeld |

## Left out

- Pixels are not modelled: no rasterisation, alpha blending or image drawing. The canvas is its command list, read by an interpreter that records what is painted and with which colour and alpha. Following the HTML canvas rules, an assignment of a global alpha outside [0, 1] is ignored. NaN and infinities are not representable, and colour strings are taken as given (a browser ignores an unparsable one).
- The face-landmark model (`initialize`, `estimateFaces`) is a foreign inference call. Whether it is loaded and the faces it returns are inputs.
- Device and UI I/O are not modelled: `getUserMedia`, `play()`, console output, `srcObject` assignments and per-track stopping. The browser's answers are inputs, and a stopped stream is reported as released as a whole. The toast an operation shows is recorded as a value (its destructive flag, title and text); only its display is left out.
- `getVideoElement` is a plain accessor and is left out.
- The webcam is a value with transitions rather than an object with mutable fields. Concurrent or re-entrant calls on one instance are not modelled.
- Database and network failures are left out because they come from libraries not shown: every lookup answers and every write succeeds unless the unique-email rule refuses it. So the 500 responses "Internal server error during login", "Internal server error during registration", "Failed to fetch consultations from database", "Failed to delete consultation" and the history handler's outer "Internal server error" are not modelled.
- The advice handler's get-or-create of the user (routes.ts:222-234) is reduced to whether it completed (`Services.userReady`). The stored row's owner, id and timestamp are also not modelled, because they come from the database and the clock.
- The Vision call, the language-model call and their prompt text are inputs. The analysis error is modelled as a string; the reply is modelled as the text of its first content block, if any.
- `Buffer.from(data, 'base64').length` is an input function. Base64 decoding and data-URL syntax beyond the `data:image/` prefix are not modelled.
- The rate limiter, the environment-variable checks at start-up and the `/api/consultations/:userId` handler (routes.ts:43-61) are not part of this model.
- The user table's `createdAt` column (`@CreateDateColumn`, server/database/entities/User.ts:15-16) is not modelled, so the user rows that login and registration return lack it. It is set by the database clock, and no handler reads it.
- A browser's `closePath()` also opens a new subpath at the closed one's first point. The interpreter does not keep it, because it holds a single point and fills paint nothing for it.
- JavaScript numbers are modelled as unbounded integers: no precision loss past 2^53, no `-0`, and no exponent notation when an id is rendered in a template literal.
- Routes.BeautyAdvice: reports the consultation it stores as a record rather than appending it to the consultation table, because the row's id, owner and creation time come from the database and the clock.
- Routes.HistoryRows: states the order (by creation time, newest first) and the content, but not how rows with equal creation times are ordered, because the database leaves that open.

=== FILE: base.dfy ===
/** Small failure-carrying datatypes shared by every module of the model. */
module Base {

  /** A value that may be absent: the model's stand-in for `null`/`undefined`. */
  datatype Option<+T> = None | Some(value: T)

  /** Either a value or the reason it could not be produced. */
  datatype Result<+T, +E> = Ok(value: T) | Err(error: E)
}

=== FILE: canvas.dfy ===
/**
 * The part of a browser 2D canvas context the makeup code drives, as an
 * append-only list of commands and an abstract interpreter for it. The
 * interpreter keeps the current path, the fill style, the global alpha and
 * the list of things painted so far; it does no rasterisation or blending.
 * `closePath` only marks the current subpath closed: the new subpath a
 * browser starts at the closed one's first point holds a single point until
 * another `lineTo`, and a fill paints nothing for it, so it is not kept.
 */
module Canvas {

  /** A landmark or path vertex in frame-pixel coordinates. */
  datatype Point = Point(x: real, y: real)

  /** One call on the 2D context, in the order the code issues them. */
  datatype Command =
    | DrawSource                 // ctx.drawImage(element, 0, 0)
    | BeginPath                  // ctx.beginPath()
    | MoveTo(p: Point)           // ctx.moveTo(x, y)
    | LineTo(p: Point)           // ctx.lineTo(x, y)
    | ClosePath                  // ctx.closePath(); the point-only subpath it then opens is not kept
    | SetFillStyle(color: string)
    | SetGlobalAlpha(alpha: real)
    | Fill                       // ctx.fill()

  /** A subpath: its vertices in drawing order and whether `closePath` closed it. */
  datatype Subpath = Subpath(vertices: seq<Point>, closed: bool)

  /** Something painted onto the surface, with the alpha in force when it was painted. */
  datatype Paint =
    | Source(alpha: real)
    | Filled(shape: seq<Subpath>, color: string, alpha: real)

  datatype State = State(path: seq<Subpath>, fillStyle: string, globalAlpha: real, painted: seq<Paint>)

  /** A freshly created context: no path, black fill, fully opaque, nothing painted. */
  const Initial := State([], "#000000", 1.0, [])

  /** Assigning `globalAlpha`: a value outside [0, 1] is ignored and the current one stays. */
  function AssignAlpha(current: real, a: real): (r: real)
    ensures 0.0 <= a <= 1.0 ==> r == a
    ensures !(0.0 <= a <= 1.0) ==> r == current
  {
    if 0.0 <= a <= 1.0 then a else current
  }

  /** The effect of one command on the context. */
  function Step(st: State, c: Command): State
  {
    match c
    case DrawSource => st.(painted := st.painted + [Source(st.globalAlpha)])
    case BeginPath => st.(path := [])
    case MoveTo(p) => st.(path := st.path + [Subpath([p], false)])
    case LineTo(p) =>
      if |st.path| == 0 then st.(path := [Subpath([p], false)])
      else
        var last := st.path[|st.path| - 1];
        st.(path := st.path[..|st.path| - 1] + [last.(vertices := last.vertices + [p])])
    case ClosePath =>
      if |st.path| == 0 then st
      else st.(path := st.path[..|st.path| - 1] + [st.path[|st.path| - 1].(closed := true)])
    case SetFillStyle(color) => st.(fillStyle := color)
    case SetGlobalAlpha(a) => st.(globalAlpha := AssignAlpha(st.globalAlpha, a))
    case Fill => st.(painted := st.painted + [Filled(st.path, st.fillStyle, st.globalAlpha)])
  }

  /** The context after running `cmds` in order from `st`. */
  function Run(st: State, cmds: seq<Command>): State
    decreases |cmds|
  {
    if |cmds| == 0 then st else Run(Step(st, cmds[0]), cmds[1..])
  }

  /** Running two command lists one after the other is running their concatenation. */
  lemma {:induction false} RunAppend(st: State, a: seq<Command>, b: seq<Command>)
    ensures Run(st, a + b) == Run(Run(st, a), b)
    decreases |a|
  {
    if |a| == 0 {
      assert a + b == b;
    } else {
      assert (a + b)[1..] == a[1..] + b;
      RunAppend(Step(st, a[0]), a[1..], b);
    }
  }
}

=== FILE: js.dfy ===
/**
 * The handful of JavaScript built-ins whose behaviour decides which branch the
 * server and client code take: truthiness and `typeof` of a JSON body field,
 * `parseInt` on a route parameter, decimal rendering of an integer in a
 * template literal, and `String.prototype.split` on one separator character.
 */
module Js {
  import opened Base

  /** A field of a parsed JSON request body. `Compound` is any array or object. */
  datatype Value =
    | Undefined
    | Null
    | Bool(b: bool)
    | Num(n: int)
    | Str(s: string)
    | Compound

  /** JavaScript's `!!v`: only `undefined`, `null`, `false`, `0` and `""` are falsy. */
  predicate Truthy(v: Value)
  {
    match v
    case Undefined => false
    case Null => false
    case Bool(b) => b
    case Num(n) => n != 0
    case Str(s) => s != ""
    case Compound => true
  }

  /** `typeof v === 'string'`. */
  predicate IsString(v: Value)
  {
    v.Str?
  }

  // ---------------------------------------------------------------------------
  // parseInt(s) with no radix argument
  // ---------------------------------------------------------------------------

  /** The outcome of `parseInt`: an integer or `NaN`. */
  datatype Parsed = NotANumber | Int(n: int)

  /** The characters `parseInt` skips before the number (StrWhiteSpaceChar of ECMA-262). */
  predicate IsJsWhitespace(c: char)
  {
    || c == '\t' || c == '\n' || c == '\U{000B}' || c == '\U{000C}' || c == '\r' || c == ' '
    || c == '\U{00A0}' || c == '\U{1680}' || ('\U{2000}' <= c <= '\U{200A}')
    || c == '\U{2028}' || c == '\U{2029}' || c == '\U{202F}' || c == '\U{205F}'
    || c == '\U{3000}' || c == '\U{FEFF}'
  }

  /** `s` with its leading whitespace removed. */
  function TrimStart(s: string): (t: string)
    ensures |t| <= |s|
    ensures |t| > 0 ==> !IsJsWhitespace(t[0])
    ensures forall i :: 0 <= i < |s| - |t| ==> IsJsWhitespace(s[i])
    ensures s[|s| - |t|..] == t
  {
    if |s| > 0 && IsJsWhitespace(s[0]) then TrimStart(s[1..]) else s
  }

  /** The value of `c` as a digit in base 36, or 36 when it is not a letter or a decimal digit. */
  function Digit36(c: char): (d: nat)
    ensures d <= 36
  {
    if '0' <= c <= '9' then c as int - '0' as int
    else if 'a' <= c <= 'z' then c as int - 'a' as int + 10
    else if 'A' <= c <= 'Z' then c as int - 'A' as int + 10
    else 36
  }

  predicate IsDecimalDigit(c: char)
  {
    '0' <= c <= '9'
  }

  /** The longest prefix of `s` made of digits of base `radix`. */
  function DigitPrefix(s: string, radix: nat): (p: string)
    ensures p <= s
    ensures forall i :: 0 <= i < |p| ==> Digit36(p[i]) < radix
    ensures |p| < |s| ==> Digit36(s[|p|]) >= radix
  {
    if |s| == 0 || Digit36(s[0]) >= radix then [] else [s[0]] + DigitPrefix(s[1..], radix)
  }

  /** The number a digit string denotes in base `radix`, most significant digit first. */
  function DigitsValue(ds: string, radix: nat): nat
  {
    if |ds| == 0 then 0 else DigitsValue(ds[..|ds| - 1], radix) * radix + Digit36(ds[|ds| - 1])
  }

  /** True when `u` starts with the `0x`/`0X` prefix that switches `parseInt` to base 16. */
  predicate HasHexPrefix(u: string)
  {
    |u| >= 2 && u[0] == '0' && (u[1] == 'x' || u[1] == 'X')
  }

  /**
   * The unsigned part of `parseInt`: base 16 after a `0x` prefix, base 10
   * otherwise, reading the longest run of digits; no digits at all gives `NaN`.
   */
  function ParseMagnitude(u: string): Parsed
  {
    var radix := if HasHexPrefix(u) then 16 else 10;
    var digits := DigitPrefix(if HasHexPrefix(u) then u[2..] else u, radix);
    if |digits| == 0 then NotANumber else Int(DigitsValue(digits, radix))
  }

  function Negate(p: Parsed): Parsed
  {
    match p
    case NotANumber => NotANumber
    case Int(n) => Int(-n)
  }

  /**
   * `parseInt(s)`: skip leading whitespace, read one optional sign, then the
   * magnitude. Anything after the digits is ignored.
   */
  function ParseInt(s: string): Parsed
  {
    var t := TrimStart(s);
    if |t| > 0 && t[0] == '-' then Negate(ParseMagnitude(t[1..]))
    else if |t| > 0 && t[0] == '+' then ParseMagnitude(t[1..])
    else ParseMagnitude(t)
  }

  // ---------------------------------------------------------------------------
  // Decimal rendering of an integer (`${n}` in a template literal)
  // ---------------------------------------------------------------------------

  function DigitChar(d: nat): (c: char)
    requires d < 10
    ensures IsDecimalDigit(c) && Digit36(c) == d
  {
    ('0' as int + d) as char
  }

  /** The decimal digits of `n`, without leading zeros. */
  function ShowNat(n: nat): (s: string)
    ensures |s| > 0
    ensures forall i :: 0 <= i < |s| ==> IsDecimalDigit(s[i])
    ensures |s| > 1 ==> s[0] != '0'
  {
    if n < 10 then [DigitChar(n)] else ShowNat(n / 10) + [DigitChar(n % 10)]
  }

  /** `String(n)` for an integer `n`: a minus sign for negatives, then the digits. */
  function ShowInt(n: int): string
  {
    if n < 0 then "-" + ShowNat(-n) else ShowNat(n)
  }

  lemma {:induction false} ShowNatValue(n: nat)
    ensures DigitsValue(ShowNat(n), 10) == n
  {
    if n >= 10 {
      var s := ShowNat(n);
      assert s[..|s| - 1] == ShowNat(n / 10);
      ShowNatValue(n / 10);
    }
  }

  /** The digit prefix of `p + rest` is the digit prefix of `p` when `p` is all digits and `rest` starts with none. */
  lemma {:induction false} DigitPrefixStops(p: string, rest: string, radix: nat)
    requires forall i :: 0 <= i < |p| ==> Digit36(p[i]) < radix
    requires |rest| == 0 || Digit36(rest[0]) >= radix
    ensures DigitPrefix(p + rest, radix) == p
  {
    if |p| > 0 {
      assert (p + rest)[1..] == p[1..] + rest;
      DigitPrefixStops(p[1..], rest, radix);
    } else {
      assert p + rest == rest;
    }
  }

  /** A run of decimal digits (not a bare `0` before an `x`) reads back as its own value, whatever follows it. */
  lemma MagnitudeOfShowNat(m: nat, rest: string)
    requires |rest| == 0 || !IsDecimalDigit(rest[0])
    requires m == 0 ==> |rest| == 0 || (rest[0] != 'x' && rest[0] != 'X')
    ensures ParseMagnitude(ShowNat(m) + rest) == Int(m)
  {
    var digits := ShowNat(m);
    var u := digits + rest;
    assert !HasHexPrefix(u) by {
      if |digits| > 1 {
        assert u[1] == digits[1];
      } else if m != 0 {
        ShowNatValue(m);
        assert u[0] == digits[0];
      }
    }
    DigitPrefixStops(digits, rest, 10);
    ShowNatValue(m);
  }

  lemma TrimStartKeeps(s: string)
    requires |s| > 0 && (s[0] == '-' || IsDecimalDigit(s[0]))
    ensures TrimStart(s) == s
  {
    assert !IsJsWhitespace(s[0]);
  }

  lemma NegativeReadsBack(m: nat, rest: string)
    requires m > 0
    requires |rest| == 0 || !IsDecimalDigit(rest[0])
    ensures ParseInt("-" + ShowNat(m) + rest) == Int(-(m as int))
  {
    var tail := ShowNat(m) + rest;
    var s := "-" + ShowNat(m) + rest;
    assert s == "-" + tail;
    TrimStartKeeps(s);
    assert s[1..] == tail;
    MagnitudeOfShowNat(m, rest);
  }

  lemma PositiveReadsBack(m: nat, rest: string)
    requires |rest| == 0 || !IsDecimalDigit(rest[0])
    requires m == 0 ==> |rest| == 0 || (rest[0] != 'x' && rest[0] != 'X')
    ensures ParseInt(ShowNat(m) + rest) == Int(m)
  {
    var s := ShowNat(m) + rest;
    assert s[0] == ShowNat(m)[0];
    TrimStartKeeps(s);
    MagnitudeOfShowNat(m, rest);
  }

  /**
   * `parseInt` ignores text after the number: `parseInt("12abc")` is 12. The one
   * exception is a bare `0` followed by `x`, which reads as a hex prefix instead.
   */
  lemma ParseIntIgnoresTrailingText(n: int, rest: string)
    requires |rest| == 0 || !IsDecimalDigit(rest[0])
    requires n == 0 ==> |rest| == 0 || (rest[0] != 'x' && rest[0] != 'X')
    ensures ParseInt(ShowInt(n) + rest) == Int(n)
  {
    if n < 0 {
      var m: nat := -n;
      assert ShowInt(n) == "-" + ShowNat(m);
      NegativeReadsBack(m, rest);
      assert ShowInt(n) + rest == "-" + ShowNat(m) + rest;
    } else {
      assert ShowInt(n) == ShowNat(n);
      PositiveReadsBack(n, rest);
    }
  }

  /** Reading back a rendered integer with `parseInt` gives the integer again. */
  lemma ParseIntShowInt(n: int)
    ensures ParseInt(ShowInt(n)) == Int(n)
  {
    ParseIntIgnoresTrailingText(n, "");
    assert ShowInt(n) + "" == ShowInt(n);
  }

  /** Text containing no decimal digit never parses: the result is `NaN`. */
  lemma NoDigitIsNaN(s: string)
    requires forall i :: 0 <= i < |s| ==> !IsDecimalDigit(s[i])
    ensures ParseInt(s) == NotANumber
  {
    var t := TrimStart(s);
    if |t| > 0 {
      assert t[0] == s[|s| - |t|];
    }
    if |t| > 1 {
      assert t[1] == s[|s| - |t| + 1];
    }
    if |t| > 0 && (t[0] == '-' || t[0] == '+') {
      MagnitudeWithoutDigits(t[1..]);
    } else {
      MagnitudeWithoutDigits(t);
    }
  }

  /** Text that does not start with a decimal digit has no magnitude. */
  lemma MagnitudeWithoutDigits(u: string)
    requires |u| == 0 || !IsDecimalDigit(u[0])
    ensures ParseMagnitude(u) == NotANumber
  {
  }

  // ---------------------------------------------------------------------------
  // s.split(sep) for a one-character separator
  // ---------------------------------------------------------------------------

  /** `s.split(sep)`: the pieces between occurrences of `sep`; `"".split(sep)` is `[""]`. */
  function Split(s: string, sep: char): (parts: seq<string>)
    ensures |parts| >= 1
    ensures forall i :: 0 <= i < |parts| ==> sep !in parts[i]
  {
    if |s| == 0 then [""]
    else
      var rest := Split(s[1..], sep);
      if s[0] == sep then [""] + rest else [[s[0]] + rest[0]] + rest[1..]
  }

  /** Joins pieces with `sep` between them (`parts.join(sep)`). */
  function Join(parts: seq<string>, sep: char): string
    requires |parts| >= 1
  {
    if |parts| == 1 then parts[0] else parts[0] + [sep] + Join(parts[1..], sep)
  }

  /** Splitting loses nothing: joining the pieces with the separator gives the text back. */
  lemma {:induction false} JoinSplit(s: string, sep: char)
    ensures Join(Split(s, sep), sep) == s
  {
    if |s| > 0 {
      var rest := Split(s[1..], sep);
      JoinSplit(s[1..], sep);
      if s[0] != sep {
        if |rest| > 1 {
          assert ([[s[0]] + rest[0]] + rest[1..])[1..] == rest[1..];
        }
      }
    }
  }

  /** The part of `s` before the first `sep` (all of `s` when there is none). */
  function Before(s: string, sep: char): (p: string)
    ensures p <= s
    ensures sep !in p
    ensures |p| < |s| ==> s[|p|] == sep
  {
    if |s| == 0 || s[0] == sep then [] else [s[0]] + Before(s[1..], sep)
  }

  /**
   * `s.split(sep)[1]`, defined without `Split`: the text between the first and
   * the second `sep` (or the end of `s`), and absent when `s` has no `sep`.
   */
  function SecondField(s: string, sep: char): Option<string>
  {
    var head := Before(s, sep);
    if |head| == |s| then None else Some(Before(s[|head| + 1..], sep))
  }

  lemma {:induction false} SplitShape(s: string, sep: char)
    ensures Split(s, sep)[0] == Before(s, sep)
    ensures |Before(s, sep)| < |s| ==> Split(s, sep)[1..] == Split(s[|Before(s, sep)| + 1..], sep)
    ensures |Before(s, sep)| == |s| ==> |Split(s, sep)| == 1
  {
    if |s| > 0 && s[0] != sep {
      SplitShape(s[1..], sep);
      if |Before(s, sep)| < |s| {
        assert s[|Before(s, sep)| + 1..] == s[1..][|Before(s[1..], sep)| + 1..];
      }
    }
  }

  /** The element at index 1 of `s.split(sep)` is exactly the second field, and exists exactly when `sep` occurs. */
  lemma SplitSecond(s: string, sep: char)
    ensures |Split(s, sep)| > 1 <==> sep in s
    ensures |Split(s, sep)| > 1 ==> SecondField(s, sep) == Some(Split(s, sep)[1])
    ensures |Split(s, sep)| == 1 ==> SecondField(s, sep) == None
  {
    SplitShape(s, sep);
    var head := Before(s, sep);
    if |head| < |s| {
      SplitShape(s[|head| + 1..], sep);
      assert sep in s by { assert s[|head|] == sep; }
    } else {
      assert head == s;
    }
  }
}

=== FILE: makeup.dfy ===
/**
 * `MakeupProcessor.applyMakeup` and its two painters. The landmark model's
 * answer is an input (a list of faces, each a map from annotation name to
 * points); the output canvas is the list of 2D-context commands issued on it.
 *
 * The code builds, for every face in detection order, one lip polygon
 * (upper outer contour followed by lower outer contour) when a lipstick
 * option is set, then a left and a right eyelid polygon when an eyeshadow
 * option is set, and fills each with the option's colour at the option's
 * opacity, putting the global alpha back to 1 after every fill.
 */
module Makeup {
  import opened Base
  import opened Canvas

  /** The colour and opacity of one zone of `MakeupOptions`. Neither is validated or clamped. */
  datatype Zone = Zone(color: string, opacity: real)

  /** `MakeupOptions`: each zone is optional, and an absent zone is not painted. */
  datatype MakeupOptions = MakeupOptions(lipstick: Option<Zone>, eyeshadow: Option<Zone>)

  /** One detected face: the landmark model's annotation groups by name. */
  datatype Face = Face(annotations: map<string, seq<Point>>)

  /** The video or image element being processed; only its size is used. */
  datatype Element = Element(width: nat, height: nat)

  const LipsUpperOuter := "lipsUpperOuter"
  const LipsLowerOuter := "lipsLowerOuter"
  const LeftEyeUpper := "leftEyeUpper0"
  const RightEyeUpper := "rightEyeUpper0"

  /** Which painter a zone option drives. */
  datatype Area = Lipstick | Eyeshadow

  /** Which polygon of a face a region is. */
  datatype Part = Lips | LeftEye | RightEye

  /** A closed polygon to fill, tagged with the zone option that colours it. */
  datatype Region = Region(part: Part, vertices: seq<Point>, zone: Zone)

  /** The face and painter at which the code throws on an unreadable landmark group. */
  datatype Fault = Fault(face: nat, area: Area)

  /**
   * What `applyMakeup` resolves to: `null`, a rejected promise, or the new
   * canvas, of the given size, with the commands issued on its context.
   */
  datatype Outcome =
    | NoOutput
    | Thrown(fault: Fault)
    | Rendered(width: nat, height: nat, commands: seq<Command>)

  // ---------------------------------------------------------------------------
  // Region construction
  // ---------------------------------------------------------------------------

  /**
   * The lip painter outlines `lipsUpperOuter.concat(lipsLowerOuter)`. A missing
   * upper group throws at `concat`; a missing lower group is appended as
   * `undefined`, which the `lineTo` loop then reads; two empty groups leave no
   * first point. One empty group beside a non-empty one is harmless.
   */
  predicate CanOutlineLips(face: Face)
  {
    var a := face.annotations;
    LipsUpperOuter in a && LipsLowerOuter in a && |a[LipsUpperOuter] + a[LipsLowerOuter]| > 0
  }

  /** The eyeshadow painter reads the first point of each eyelid group: both must exist and be non-empty. */
  predicate CanOutlineEyes(face: Face)
  {
    var a := face.annotations;
    LeftEyeUpper in a && RightEyeUpper in a && |a[LeftEyeUpper]| > 0 && |a[RightEyeUpper]| > 0
  }

  /** The number of regions one face yields under `opts`. */
  function RegionsPerFace(opts: MakeupOptions): nat
  {
    (if opts.lipstick.Some? then 1 else 0) + (if opts.eyeshadow.Some? then 2 else 0)
  }

  function LipRegions(face: Face, lipstick: Option<Zone>): seq<Region>
    requires lipstick.Some? ==> CanOutlineLips(face)
  {
    match lipstick
    case None => []
    case Some(z) =>
      [Region(Lips, face.annotations[LipsUpperOuter] + face.annotations[LipsLowerOuter], z)]
  }

  function EyeRegions(face: Face, eyeshadow: Option<Zone>): seq<Region>
    requires eyeshadow.Some? ==> CanOutlineEyes(face)
  {
    match eyeshadow
    case None => []
    case Some(z) =>
      [Region(LeftEye, face.annotations[LeftEyeUpper], z), Region(RightEye, face.annotations[RightEyeUpper], z)]
  }

  /**
   * The regions of one face, in paint order: the lip polygon (if lipstick is
   * set), then the left and the right eyelid (if eyeshadow is set). A zone
   * whose groups cannot be read makes the painter throw; lipstick runs first,
   * so it is the one reported when both would.
   */
  function FaceRegions(face: Face, opts: MakeupOptions): (r: Result<seq<Region>, Area>)
    ensures r.Err? <==>
      (opts.lipstick.Some? && !CanOutlineLips(face)) || (opts.eyeshadow.Some? && !CanOutlineEyes(face))
    ensures r.Err? && opts.lipstick.Some? && !CanOutlineLips(face) ==> r.error == Lipstick
    ensures r.Err? && !(opts.lipstick.Some? && !CanOutlineLips(face)) ==> r.error == Eyeshadow
    ensures r.Ok? ==> |r.value| == RegionsPerFace(opts)
    ensures r.Ok? ==> forall i :: 0 <= i < |r.value| ==> |r.value[i].vertices| > 0
    ensures r.Ok? && opts.lipstick.Some? ==>
      r.value[0] == Region(Lips, face.annotations[LipsUpperOuter] + face.annotations[LipsLowerOuter], opts.lipstick.value)
    ensures r.Ok? && opts.eyeshadow.Some? ==>
      var k := if opts.lipstick.Some? then 1 else 0;
      && r.value[k] == Region(LeftEye, face.annotations[LeftEyeUpper], opts.eyeshadow.value)
      && r.value[k + 1] == Region(RightEye, face.annotations[RightEyeUpper], opts.eyeshadow.value)
  {
    if opts.lipstick.Some? && !CanOutlineLips(face) then Err(Lipstick)
    else if opts.eyeshadow.Some? && !CanOutlineEyes(face) then Err(Eyeshadow)
    else Ok(LipRegions(face, opts.lipstick) + EyeRegions(face, opts.eyeshadow))
  }

  /** True when painting `face` under `opts` does not throw. */
  predicate Drawable(face: Face, opts: MakeupOptions)
  {
    FaceRegions(face, opts).Ok?
  }

  /**
   * The regions of all faces, face after face in detection order; the first
   * face that cannot be painted aborts the whole call.
   */
  function BuildRegions(faces: seq<Face>, opts: MakeupOptions): (r: Result<seq<Region>, Fault>)
    ensures r.Ok? <==> forall k :: 0 <= k < |faces| ==> Drawable(faces[k], opts)
    ensures r.Err? ==>
      && r.error.face < |faces|
      && !Drawable(faces[r.error.face], opts)
      && FaceRegions(faces[r.error.face], opts) == Err(r.error.area)
      && (forall k :: 0 <= k < r.error.face ==> Drawable(faces[k], opts))
    ensures r.Ok? ==> AllOutlined(r.value)
    decreases |faces|
  {
    if |faces| == 0 then Ok([])
    else
      var last := |faces| - 1;
      var prefix := faces[..last];
      assert forall k :: 0 <= k < last ==> prefix[k] == faces[k];
      match BuildRegions(prefix, opts)
      case Err(f) => Err(f)
      case Ok(earlier) =>
        assert forall k :: 0 <= k < last ==> Drawable(faces[k], opts);
        match FaceRegions(faces[last], opts)
        case Err(a) => Err(Fault(last, a))
        case Ok(mine) =>
          AllOutlinedAppend(earlier, mine);
          Ok(earlier + mine)
  }

  lemma AllOutlinedAppend(a: seq<Region>, b: seq<Region>)
    requires AllOutlined(a) && AllOutlined(b)
    ensures AllOutlined(a + b)
  {
  }

  // ---------------------------------------------------------------------------
  // Paint commands
  // ---------------------------------------------------------------------------

  function LineTos(vs: seq<Point>): seq<Command>
  {
    if |vs| == 0 then [] else [LineTo(vs[0])] + LineTos(vs[1..])
  }

  /**
   * The commands that fill one region: begin a path, move to the first vertex,
   * draw a line to every vertex (the first one again included), close the
   * path, set the fill style and alpha from the zone, fill, and reset the alpha.
   */
  function FillRegion(r: Region): seq<Command>
    requires |r.vertices| > 0
  {
    [BeginPath, MoveTo(r.vertices[0])] + LineTos(r.vertices) + [ClosePath]
    + [SetFillStyle(r.zone.color), SetGlobalAlpha(r.zone.opacity), Fill, SetGlobalAlpha(1.0)]
  }

  predicate AllOutlined(rs: seq<Region>)
  {
    forall i :: 0 <= i < |rs| ==> |rs[i].vertices| > 0
  }

  function PaintRegions(rs: seq<Region>): seq<Command>
    requires AllOutlined(rs)
  {
    if |rs| == 0 then [] else FillRegion(rs[0]) + PaintRegions(rs[1..])
  }

  /**
   * `applyMakeup(element, options)`. `modelLoaded` says whether `initialize`
   * has set the model, `faces` is what `estimateFaces` returns for the element,
   * and `hasContext` whether `getContext('2d')` gave a context.
   */
  function ApplyMakeup(modelLoaded: bool, element: Element, faces: seq<Face>, hasContext: bool, opts: MakeupOptions): (r: Outcome)
    ensures !modelLoaded ==> r == NoOutput
    ensures |faces| == 0 ==> r == NoOutput
    ensures !hasContext ==> r == NoOutput
    ensures r.Thrown? <==>
      modelLoaded && |faces| > 0 && hasContext && exists k :: 0 <= k < |faces| && !Drawable(faces[k], opts)
    ensures r.Rendered? <==>
      modelLoaded && |faces| > 0 && hasContext && forall k :: 0 <= k < |faces| ==> Drawable(faces[k], opts)
    ensures r.Rendered? ==>
      r.width == element.width && r.height == element.height && |r.commands| > 0 && r.commands[0] == DrawSource
    ensures r.Thrown? ==>
      && r.fault.face < |faces|
      && !Drawable(faces[r.fault.face], opts)
      && FaceRegions(faces[r.fault.face], opts) == Err(r.fault.area)
      && forall k :: 0 <= k < r.fault.face ==> Drawable(faces[k], opts)
  {
    if !modelLoaded then NoOutput
    else if |faces| == 0 then NoOutput
    else if !hasContext then NoOutput
    else
      match BuildRegions(faces, opts)
      case Err(f) => Thrown(f)
      case Ok(rs) => Rendered(element.width, element.height, [DrawSource] + PaintRegions(rs))
  }

  // ---------------------------------------------------------------------------
  // What the canvas ends up with
  // ---------------------------------------------------------------------------

  /** The single closed subpath a region's commands trace: the first vertex, then every vertex. */
  function Shape(r: Region): seq<Subpath>
    requires |r.vertices| > 0
  {
    [Subpath([r.vertices[0]] + r.vertices, true)]
  }

  /**
   * What filling `r` paints: its shape, in its zone's colour, at its zone's
   * opacity; an opacity outside [0, 1] is ignored by the context, which then
   * fills at the alpha of 1 set after the previous fill.
   */
  function PaintOf(r: Region): Paint
    requires |r.vertices| > 0
  {
    Filled(Shape(r), r.zone.color, AssignAlpha(1.0, r.zone.opacity))
  }

  function Paints(rs: seq<Region>): (ps: seq<Paint>)
    requires AllOutlined(rs)
    ensures |ps| == |rs|
  {
    if |rs| == 0 then [] else [PaintOf(rs[0])] + Paints(rs[1..])
  }

  lemma AllOutlinedTail(rs: seq<Region>)
    requires AllOutlined(rs) && |rs| > 0
    ensures AllOutlined(rs[1..])
  {
  }

  lemma {:induction false} PaintsAt(rs: seq<Region>, i: nat)
    requires AllOutlined(rs) && i < |rs|
    ensures Paints(rs)[i] == PaintOf(rs[i])
    decreases |rs|
  {
    if i > 0 {
      AllOutlinedTail(rs);
      PaintsAt(rs[1..], i - 1);
    }
  }

  lemma {:induction false} RunLineTos(st: State, w: seq<Point>, vs: seq<Point>)
    requires st.path == [Subpath(w, false)]
    ensures Run(st, LineTos(vs)) == st.(path := [Subpath(w + vs, false)])
    decreases |vs|
  {
    if |vs| == 0 {
      assert w + vs == w;
    } else {
      var next := Step(st, LineTo(vs[0]));
      assert next == st.(path := [Subpath(w + [vs[0]], false)]);
      RunLineTos(next, w + [vs[0]], vs[1..]);
      assert (w + [vs[0]]) + vs[1..] == w + vs;
    }
  }

  /** Running a single command is taking one step. */
  lemma RunOne(st: State, c: Command)
    ensures Run(st, [c]) == Step(st, c)
  {
  }

  /** The five commands after the outline: close, style, alpha, fill, alpha back to 1. */
  lemma RunFinish(st: State, r: Region)
    requires |st.path| > 0
    requires st.globalAlpha == 1.0
    ensures Run(st, [ClosePath, SetFillStyle(r.zone.color), SetGlobalAlpha(r.zone.opacity), Fill, SetGlobalAlpha(1.0)]) ==
      var closed := st.path[..|st.path| - 1] + [st.path[|st.path| - 1].(closed := true)];
      State(closed, r.zone.color, 1.0, st.painted + [Filled(closed, r.zone.color, AssignAlpha(1.0, r.zone.opacity))])
  {
    var closed := st.path[..|st.path| - 1] + [st.path[|st.path| - 1].(closed := true)];
    var c1, c2, c3, c4, c5 := ClosePath, SetFillStyle(r.zone.color), SetGlobalAlpha(r.zone.opacity), Fill, SetGlobalAlpha(1.0);
    var s1 := st.(path := closed);
    assert Step(st, c1) == s1;
    var s2 := s1.(fillStyle := r.zone.color);
    assert Step(s1, c2) == s2;
    var s3 := s2.(globalAlpha := AssignAlpha(1.0, r.zone.opacity));
    assert Step(s2, c3) == s3;
    var s4 := s3.(painted := st.painted + [Filled(closed, r.zone.color, AssignAlpha(1.0, r.zone.opacity))]);
    assert Step(s3, c4) == s4;
    var s5 := s4.(globalAlpha := 1.0);
    assert Step(s4, c5) == s5;
    RunOne(s1, c2); RunOne(s2, c3); RunOne(s3, c4); RunOne(s4, c5);
    RunAppend(st, [c1], [c2, c3, c4, c5]);
    RunAppend(s1, [c2], [c3, c4, c5]);
    RunAppend(s2, [c3], [c4, c5]);
    RunAppend(s3, [c4], [c5]);
    RunOne(st, c1);
    assert [c1] + [c2, c3, c4, c5] == [c1, c2, c3, c4, c5];
    assert [c2] + [c3, c4, c5] == [c2, c3, c4, c5];
    assert [c3] + [c4, c5] == [c3, c4, c5];
    assert [c4] + [c5] == [c4, c5];
  }

  /** `beginPath` then `moveTo(p)`: the path is a single open subpath at `p`. */
  lemma RunStart(st: State, p: Point)
    ensures Run(st, [BeginPath, MoveTo(p)]) == st.(path := [Subpath([p], false)])
  {
    var s1 := st.(path := []);
    assert Step(st, BeginPath) == s1;
    assert Step(s1, MoveTo(p)) == st.(path := [Subpath([p], false)]);
    RunOne(s1, MoveTo(p));
    RunAppend(st, [BeginPath], [MoveTo(p)]);
    RunOne(st, BeginPath);
    assert [BeginPath] + [MoveTo(p)] == [BeginPath, MoveTo(p)];
  }

  /** Filling one region replaces the path by its closed outline and paints it with its zone; alpha ends at 1. */
  lemma RunFillRegion(st: State, r: Region)
    requires |r.vertices| > 0
    requires st.globalAlpha == 1.0
    ensures Run(st, FillRegion(r)) ==
      State(Shape(r), r.zone.color, 1.0, st.painted + [PaintOf(r)])
  {
    var v := r.vertices;
    var head: seq<Command> := [BeginPath, MoveTo(v[0])];
    RunStart(st, v[0]);
    var s1 := Run(st, head);
    RunLineTos(s1, [v[0]], v);
    var s2 := Run(s1, LineTos(v));
    var tail: seq<Command> := [ClosePath, SetFillStyle(r.zone.color), SetGlobalAlpha(r.zone.opacity), Fill, SetGlobalAlpha(1.0)];
    assert s2 == st.(path := [Subpath([v[0]] + v, false)]);
    RunFinish(s2, r);
    var closed := s2.path[..|s2.path| - 1] + [s2.path[|s2.path| - 1].(closed := true)];
    assert closed == Shape(r);
    assert Run(s2, tail) == State(Shape(r), r.zone.color, 1.0, st.painted + [PaintOf(r)]);
    assert FillRegion(r) == head + (LineTos(v) + tail);
    RunAppend(st, head, LineTos(v) + tail);
    RunAppend(s1, LineTos(v), tail);
  }

  /** Painting a list of regions paints each of them, in list order; alpha is 1 afterwards if it was before. */
  lemma {:induction false} RunPaintRegions(st: State, rs: seq<Region>)
    requires AllOutlined(rs)
    requires st.globalAlpha == 1.0
    ensures Run(st, PaintRegions(rs)).painted == st.painted + Paints(rs)
    ensures Run(st, PaintRegions(rs)).globalAlpha == 1.0
    decreases |rs|
  {
    if |rs| == 0 {
      assert st.painted + Paints(rs) == st.painted;
    } else {
      var rest := rs[1..];
      AllOutlinedTail(rs);
      assert PaintRegions(rs) == FillRegion(rs[0]) + PaintRegions(rest);
      RunAppend(st, FillRegion(rs[0]), PaintRegions(rest));
      RunFillRegion(st, rs[0]);
      var s1 := Run(st, FillRegion(rs[0]));
      RunPaintRegions(s1, rest);
      assert Paints(rs) == [PaintOf(rs[0])] + Paints(rest);
      assert st.painted + Paints(rs) == (st.painted + [PaintOf(rs[0])]) + Paints(rest);
    }
  }

  /**
   * What a rendered canvas shows, read back through the context's semantics:
   * the source element at full opacity first, then exactly one fill per built
   * region, in region order, each in its zone's colour and opacity; the
   * context's global alpha is 1 when the canvas is returned.
   */
  lemma RenderedPaints(modelLoaded: bool, element: Element, faces: seq<Face>, hasContext: bool, opts: MakeupOptions)
    requires ApplyMakeup(modelLoaded, element, faces, hasContext, opts).Rendered?
    ensures BuildRegions(faces, opts).Ok?
    ensures var st := Run(Initial, ApplyMakeup(modelLoaded, element, faces, hasContext, opts).commands);
      && st.painted == [Source(1.0)] + Paints(BuildRegions(faces, opts).value)
      && st.globalAlpha == 1.0
  {
    var rs := BuildRegions(faces, opts).value;
    var cmds := ApplyMakeup(modelLoaded, element, faces, hasContext, opts).commands;
    assert cmds == [DrawSource] + PaintRegions(rs);
    var s1 := Step(Initial, DrawSource);
    assert s1.painted == [Source(1.0)] && s1.globalAlpha == 1.0;
    RunOne(Initial, DrawSource);
    RunAppend(Initial, [DrawSource], PaintRegions(rs));
    RunPaintRegions(s1, rs);
  }

  // ---------------------------------------------------------------------------
  // Face-by-face order and counts
  // ---------------------------------------------------------------------------

  /** Where face `k`'s block of regions starts: `k * n`, counted up one block at a time. */
  function Offset(k: nat, n: nat): nat
  {
    if k == 0 then 0 else Offset(k - 1, n) + n
  }

  lemma {:induction false} OffsetIsProduct(k: nat, n: nat)
    ensures Offset(k, n) == k * n
  {
    if k > 0 {
      OffsetIsProduct(k - 1, n);
      assert (k - 1) * n + n == k * n;
    }
  }

  lemma {:induction false} OffsetMonotone(j: nat, k: nat, n: nat)
    requires j <= k
    ensures Offset(j, n) <= Offset(k, n)
    decreases k
  {
    if j < k {
      OffsetMonotone(j, k - 1, n);
    }
  }

  /** There are `RegionsPerFace(opts)` built regions per face. */
  lemma {:induction false} RegionCount(faces: seq<Face>, opts: MakeupOptions)
    requires BuildRegions(faces, opts).Ok?
    ensures |BuildRegions(faces, opts).value| == Offset(|faces|, RegionsPerFace(opts))
    decreases |faces|
  {
    if |faces| > 0 {
      var prefix := faces[..|faces| - 1];
      assert forall k :: 0 <= k < |prefix| ==> prefix[k] == faces[k];
      RegionCount(prefix, opts);
      assert Drawable(faces[|faces| - 1], opts);
    }
  }

  /**
   * The built regions come in blocks of `RegionsPerFace(opts)`, one block per
   * face in detection order: region `j` of face `k` sits at `Offset(k, n) + j`.
   */
  lemma {:induction false} RegionsFaceByFace(faces: seq<Face>, opts: MakeupOptions, k: nat, j: nat)
    requires BuildRegions(faces, opts).Ok?
    requires k < |faces| && j < RegionsPerFace(opts)
    ensures Drawable(faces[k], opts)
    ensures Offset(k, RegionsPerFace(opts)) + j < |BuildRegions(faces, opts).value|
    ensures BuildRegions(faces, opts).value[Offset(k, RegionsPerFace(opts)) + j] == FaceRegions(faces[k], opts).value[j]
    decreases |faces|
  {
    var n := RegionsPerFace(opts);
    var m := |faces|;
    var prefix := faces[..m - 1];
    BuildRegionsLast(faces, opts);
    var earlier := BuildRegions(prefix, opts).value;
    var rs := BuildRegions(faces, opts).value;
    RegionCount(prefix, opts);
    if k < m - 1 {
      RegionsFaceByFace(prefix, opts, k, j);
      assert prefix[k] == faces[k];
      assert rs[Offset(k, n) + j] == earlier[Offset(k, n) + j];
    }
  }

  /** A successful build is the build of all faces but the last, followed by the last face's regions. */
  lemma BuildRegionsLast(faces: seq<Face>, opts: MakeupOptions)
    requires BuildRegions(faces, opts).Ok? && |faces| > 0
    ensures BuildRegions(faces[..|faces| - 1], opts).Ok?
    ensures Drawable(faces[|faces| - 1], opts)
    ensures BuildRegions(faces, opts).value ==
      BuildRegions(faces[..|faces| - 1], opts).value + FaceRegions(faces[|faces| - 1], opts).value
  {
    var prefix := faces[..|faces| - 1];
    assert forall i :: 0 <= i < |prefix| ==> prefix[i] == faces[i];
  }

  function CountFills(ps: seq<Paint>): nat
  {
    if |ps| == 0 then 0 else (if ps[0].Filled? then 1 else 0) + CountFills(ps[1..])
  }

  lemma {:induction false} CountFillsOfPaints(rs: seq<Region>)
    requires AllOutlined(rs)
    ensures CountFills(Paints(rs)) == |rs|
    decreases |rs|
  {
    if |rs| > 0 {
      assert Paints(rs)[1..] == Paints(rs[1..]);
      CountFillsOfPaints(rs[1..]);
    }
  }

  /**
   * A rendered canvas holds exactly faces × (1 for lipstick + 2 for eyeshadow)
   * fills, and the source drawing is not one of them.
   */
  lemma FillCount(modelLoaded: bool, element: Element, faces: seq<Face>, hasContext: bool, opts: MakeupOptions)
    requires ApplyMakeup(modelLoaded, element, faces, hasContext, opts).Rendered?
    ensures CountFills(Run(Initial, ApplyMakeup(modelLoaded, element, faces, hasContext, opts).commands).painted)
      == |faces| * RegionsPerFace(opts)
  {
    RenderedPaints(modelLoaded, element, faces, hasContext, opts);
    RegionCount(faces, opts);
    OffsetIsProduct(|faces|, RegionsPerFace(opts));
    var rs := BuildRegions(faces, opts).value;
    CountFillsOfPaints(rs);
    assert ([Source(1.0)] + Paints(rs))[1..] == Paints(rs);
  }

  /** Fill `j` of face `k` sits at index `1 + k * n + j` of the rendered canvas and paints that face's region `j`. */
  lemma BlockPaints(faces: seq<Face>, opts: MakeupOptions, k: nat)
    requires BuildRegions(faces, opts).Ok?
    requires k < |faces|
    ensures var rs := BuildRegions(faces, opts).value; var n := RegionsPerFace(opts);
      && Drawable(faces[k], opts)
      && 1 + k * n + n <= |[Source(1.0)] + Paints(rs)|
      && forall j :: 0 <= j < n ==>
           ([Source(1.0)] + Paints(rs))[1 + k * n + j] == PaintOf(FaceRegions(faces[k], opts).value[j])
  {
    var n := RegionsPerFace(opts);
    RegionCount(faces, opts);
    OffsetIsProduct(k, n);
    OffsetIsProduct(|faces|, n);
    OffsetMonotone(k + 1, |faces|, n);
    var rs := BuildRegions(faces, opts).value;
    forall j | 0 <= j < n
      ensures ([Source(1.0)] + Paints(rs))[1 + k * n + j] == PaintOf(FaceRegions(faces[k], opts).value[j])
    {
      RegionsFaceByFace(faces, opts, k, j);
      PaintsAt(rs, k * n + j);
    }
  }

  /**
   * For every face, the lip fill (when lipstick is set) comes first in that
   * face's block and outlines `lipsUpperOuter` followed by `lipsLowerOuter`;
   * the left then the right eyelid fill (when eyeshadow is set) follow it.
   * Index 0 of the canvas is the source drawing.
   */
  lemma FacePaintOrder(modelLoaded: bool, element: Element, faces: seq<Face>, hasContext: bool, opts: MakeupOptions, k: nat)
    requires ApplyMakeup(modelLoaded, element, faces, hasContext, opts).Rendered?
    requires k < |faces|
    ensures var painted := Run(Initial, ApplyMakeup(modelLoaded, element, faces, hasContext, opts).commands).painted;
      var a := faces[k].annotations;
      var base := 1 + k * RegionsPerFace(opts);
      var lips := if opts.lipstick.Some? then 1 else 0;
      && base + RegionsPerFace(opts) <= |painted|
      && (opts.lipstick.Some? ==>
            && CanOutlineLips(faces[k])
            && var outline := a[LipsUpperOuter] + a[LipsLowerOuter];
               painted[base] == Filled([Subpath([outline[0]] + outline, true)], opts.lipstick.value.color, AssignAlpha(1.0, opts.lipstick.value.opacity)))
      && (opts.eyeshadow.Some? ==>
            && CanOutlineEyes(faces[k])
            && painted[base + lips] == Filled([Subpath([a[LeftEyeUpper][0]] + a[LeftEyeUpper], true)], opts.eyeshadow.value.color, AssignAlpha(1.0, opts.eyeshadow.value.opacity))
            && painted[base + lips + 1] == Filled([Subpath([a[RightEyeUpper][0]] + a[RightEyeUpper], true)], opts.eyeshadow.value.color, AssignAlpha(1.0, opts.eyeshadow.value.opacity)))
  {
    RenderedPaints(modelLoaded, element, faces, hasContext, opts);
    var n := RegionsPerFace(opts);
    var rs := BuildRegions(faces, opts).value;
    var face := faces[k];
    assert Drawable(face, opts);
    var mine := FaceRegions(face, opts).value;
    var painted := [Source(1.0)] + Paints(rs);
    BlockPaints(faces, opts, k);
    var base := 1 + k * n;
    var lips := if opts.lipstick.Some? then 1 else 0;
    if opts.lipstick.Some? {
      assert painted[base] == PaintOf(mine[0]);
    }
    if opts.eyeshadow.Some? {
      assert painted[base + lips] == PaintOf(mine[lips]);
      assert painted[base + lips + 1] == PaintOf(mine[lips + 1]);
    }
  }

  /** With neither option set, a rendered canvas is the source drawing and nothing else. */
  lemma NoOptionsPaintNothing(modelLoaded: bool, element: Element, faces: seq<Face>, hasContext: bool)
    requires ApplyMakeup(modelLoaded, element, faces, hasContext, MakeupOptions(None, None)).Rendered?
    ensures Run(Initial, ApplyMakeup(modelLoaded, element, faces, hasContext, MakeupOptions(None, None)).commands).painted
      == [Source(1.0)]
  {
    var opts := MakeupOptions(None, None);
    RenderedPaints(modelLoaded, element, faces, hasContext, opts);
    RegionCount(faces, opts);
    OffsetIsProduct(|faces|, 0);
  }

  // ---------------------------------------------------------------------------
  // Alpha discipline on the command list itself
  // ---------------------------------------------------------------------------

  /** Every `fill` is immediately followed by setting the global alpha back to 1. */
  predicate AlphaResetAfterFills(cmds: seq<Command>)
  {
    forall i :: 0 <= i < |cmds| && cmds[i] == Fill ==> i + 1 < |cmds| && cmds[i + 1] == SetGlobalAlpha(1.0)
  }

  lemma AlphaResetAppend(a: seq<Command>, b: seq<Command>)
    requires AlphaResetAfterFills(a) && AlphaResetAfterFills(b)
    ensures AlphaResetAfterFills(a + b)
  {
  }

  lemma {:induction false} LineTosHaveNoFill(vs: seq<Point>)
    ensures forall i :: 0 <= i < |LineTos(vs)| ==> LineTos(vs)[i].LineTo?
    ensures |LineTos(vs)| == |vs|
    decreases |vs|
  {
    if |vs| > 0 {
      LineTosHaveNoFill(vs[1..]);
    }
  }

  lemma {:induction false} PaintRegionsResetAlpha(rs: seq<Region>)
    requires AllOutlined(rs)
    ensures AlphaResetAfterFills(PaintRegions(rs))
    decreases |rs|
  {
    if |rs| > 0 {
      var r := rs[0];
      LineTosHaveNoFill(r.vertices);
      var c := FillRegion(r);
      assert AlphaResetAfterFills(c) by {
        var k := |c|;
        var l := |r.vertices|;
        assert k == l + 7;
        forall i | 0 <= i < k ensures c[i] == Fill ==> i == l + 5 {
          if 2 <= i < 2 + l {
            assert c[i] == LineTos(r.vertices)[i - 2];
          }
        }
      }
      PaintRegionsResetAlpha(rs[1..]);
      AlphaResetAppend(c, PaintRegions(rs[1..]));
    }
  }

  /** In a rendered canvas's command list, every fill is followed at once by `globalAlpha = 1`. */
  lemma RenderedResetsAlpha(modelLoaded: bool, element: Element, faces: seq<Face>, hasContext: bool, opts: MakeupOptions)
    requires ApplyMakeup(modelLoaded, element, faces, hasContext, opts).Rendered?
    ensures AlphaResetAfterFills(ApplyMakeup(modelLoaded, element, faces, hasContext, opts).commands)
  {
    var rs := BuildRegions(faces, opts).value;
    PaintRegionsResetAlpha(rs);
    AlphaResetAppend([DrawSource], PaintRegions(rs));
  }
}

=== FILE: routes.dfy ===
/**
 * The request handlers of the server: consultation history, login,
 * registration, beauty advice and consultation deletion. Each handler is a
 * function from the request fields and the current tables to the response it
 * sends and the tables it leaves. The services the advice handler calls (the
 * image analysis, the language model, the decoder measuring the image) are
 * inputs that say what those calls answered.
 */
module Routes {
  import opened Base
  import opened Js
  import opened Store

  /** The JSON body of a response. */
  datatype Body =
    | Failure(error: string)                 // { error }
    | UserBody(user: User)                   // the user row
    | AdviceBody(advice: string)             // { advice }
    | HistoryBody(items: seq<ConsultationView>)
    | MessageBody(message: string)           // { message }

  datatype Response = Response(status: nat, body: Body)

  function Fail(status: nat, error: string): Response
  {
    Response(status, Failure(error))
  }

  /** The schema's rule on the user table: no two users share an email. */
  predicate UniqueEmails(users: seq<User>)
  {
    forall i, j :: 0 <= i < j < |users| ==> users[i].email != users[j].email
  }

  // ---------------------------------------------------------------------------
  // POST /api/login
  // ---------------------------------------------------------------------------

  /** `POST /api/login { email }`: a falsy email, then a non-string one, is refused before the lookup. */
  function Login(users: seq<User>, email: Value): (r: Response)
    ensures !Truthy(email) ==> r == Fail(400, "Email is required")
    ensures Truthy(email) && !IsString(email) ==> r == Fail(400, "Invalid input type")
    ensures r.status == 200 <==> email.Str? && email.s != "" && exists i :: 0 <= i < |users| && users[i].email == email.s
    ensures r.status == 200 ==> r.body.UserBody? && r.body.user in users && r.body.user.email == email.s
    ensures r.status == 404 <==> email.Str? && email.s != "" && forall i :: 0 <= i < |users| ==> users[i].email != email.s
    ensures r.status == 404 ==> r == Fail(404, "User not found. Please register first.")
  {
    if !Truthy(email) then Fail(400, "Email is required")
    else if !IsString(email) then Fail(400, "Invalid input type")
    else match FindUser(users, ByEmail(email.s))
      case None => Fail(404, "User not found. Please register first.")
      case Some(u) => Response(200, UserBody(u))
  }

  // ---------------------------------------------------------------------------
  // POST /api/register
  // ---------------------------------------------------------------------------

  /** The response and the user table after a request. */
  datatype Registered = Registered(response: Response, users: seq<User>)

  /**
   * `POST /api/register { name, email }`. The new user's id is generated by
   * the database; `freshId` is the id it generates.
   */
  function Register(users: seq<User>, name: Value, email: Value, freshId: int): (r: Registered)
    ensures !Truthy(name) || !Truthy(email) ==> r.response == Fail(400, "Name and email are required")
    ensures Truthy(name) && Truthy(email) && !(IsString(name) && IsString(email)) ==> r.response == Fail(400, "Invalid input types")
    ensures r.response == Fail(400, "User already exists") <==>
      name.Str? && name.s != "" && email.Str? && email.s != "" && exists i :: 0 <= i < |users| && users[i].email == email.s
    ensures r.response.status == 201 <==>
      name.Str? && name.s != "" && email.Str? && email.s != "" && forall i :: 0 <= i < |users| ==> users[i].email != email.s
    ensures r.response.status == 201 ==>
      r.users == users + [User(freshId, name.s, email.s)] && r.response.body == UserBody(User(freshId, name.s, email.s))
    ensures r.response.status != 201 ==> r.users == users && r.response.status == 400
    ensures UniqueEmails(users) ==> UniqueEmails(r.users)
  {
    if !Truthy(name) || !Truthy(email) then Registered(Fail(400, "Name and email are required"), users)
    else if !IsString(name) || !IsString(email) then Registered(Fail(400, "Invalid input types"), users)
    else if FindUser(users, ByEmail(email.s)).Some? then Registered(Fail(400, "User already exists"), users)
    else
      var u := User(freshId, name.s, email.s);
      Registered(Response(201, UserBody(u)), users + [u])
  }

  /** A user who has just registered can log in with the same email, and gets their own row back. */
  lemma RegisterThenLogin(users: seq<User>, name: string, email: string, freshId: int)
    requires Register(users, Str(name), Str(email), freshId).response.status == 201
    ensures var after := Register(users, Str(name), Str(email), freshId).users;
      Login(after, Str(email)) == Response(200, UserBody(User(freshId, name, email)))
  {
    var after := users + [User(freshId, name, email)];
    assert after[|users|].email == email;
    assert forall i :: 0 <= i < |users| ==> after[i] == users[i];
    UserByEmailFirst(users, User(freshId, name, email));
  }

  /** Looking up an email nobody in `users` has finds the one row appended with it. */
  lemma {:induction false} UserByEmailFirst(users: seq<User>, u: User)
    requires forall i :: 0 <= i < |users| ==> users[i].email != u.email
    ensures FindUser(users + [u], ByEmail(u.email)) == Some(u)
  {
    if |users| > 0 {
      assert (users + [u])[1..] == users[1..] + [u];
      UserByEmailFirst(users[1..], u);
    }
  }

  /** Registering the same email a second time is refused and leaves the table as it was. */
  lemma RegisterTwiceRefused(users: seq<User>, name: Value, name2: Value, email: string, id1: int, id2: int)
    requires Register(users, name, Str(email), id1).response.status == 201
    requires Truthy(name2) && IsString(name2)
    ensures var after := Register(users, name, Str(email), id1).users;
      Register(after, name2, Str(email), id2) == Registered(Fail(400, "User already exists"), after)
  {
    var after := Register(users, name, Str(email), id1).users;
    assert after[|users|].email == email;
  }

  // ---------------------------------------------------------------------------
  // GET /api/consultation-history/:userId
  // ---------------------------------------------------------------------------

  /** The user the history endpoint creates for an id it does not know, named from the id's decimal form. */
  function Placeholder(id: int): (u: User)
    ensures u.id == id
    ensures |u.email| >= 4 && u.email[..4] == "user" && ParseInt(u.email[4..]) == Int(id)
    ensures |u.name| >= 5 && u.name[..5] == "User " && ParseInt(u.name[5..]) == Int(id)
  {
    var digits := ShowInt(id);
    var u := User(id, "User " + digits, "user" + digits + "@example.com");
    assert u.email[4..] == digits + "@example.com";
    assert u.name[5..] == digits;
    ParseIntIgnoresTrailingText(id, "@example.com");
    ParseIntShowInt(id);
    u
  }

  /** Distinct ids get distinct placeholder emails, so a placeholder can only clash with a row made some other way. */
  lemma PlaceholderEmailsDistinct(id1: int, id2: int)
    requires id1 != id2
    ensures Placeholder(id1).email != Placeholder(id2).email
  {
  }

  /** The rows the history query returns: the user's consultations, newest first. */
  function HistoryRows(cs: seq<Consultation>, userId: int): (rows: seq<Consultation>)
    ensures NewestFirstOrder(rows)
    ensures forall c :: multiset(rows)[c] == if c.userId == userId then multiset(cs)[c] else 0
  {
    NewestFirst(OwnedBy(cs, userId))
  }

  /**
   * The history handler once `parseInt` has produced `id`: a user unknown by
   * id gets a placeholder row, which fails when its email is already taken;
   * then the user's consultations are listed newest first.
   */
  function HistoryFor(db: Db, id: int): (r: Outcome)
    ensures r.response.status == 500 <==>
      FindUser(db.users, ById(id)).None? && FindUser(db.users, ByEmail(Placeholder(id).email)).Some?
    ensures r.response.status == 500 ==> r == Outcome(Fail(500, "Failed to create user"), db)
    ensures r.response.status != 500 ==>
      && r.response == Response(200, HistoryBody(Project(HistoryRows(db.consultations, id))))
      && r.db.consultations == db.consultations
      && r.db.users == (if FindUser(db.users, ById(id)).Some? then db.users else db.users + [Placeholder(id)])
      && FindUser(r.db.users, ById(id)).Some?
    ensures UniqueEmails(db.users) ==> UniqueEmails(r.db.users)
  {
    if FindUser(db.users, ById(id)).None? && FindUser(db.users, ByEmail(Placeholder(id).email)).Some? then
      Outcome(Fail(500, "Failed to create user"), db)
    else
      var users := if FindUser(db.users, ById(id)).Some? then db.users else db.users + [Placeholder(id)];
      assert users[|users| - 1].id == id || FindUser(db.users, ById(id)).Some?;
      Outcome(Response(200, HistoryBody(Project(HistoryRows(db.consultations, id)))), db.(users := users))
  }

  /** `GET /api/consultation-history/:userId`: an id that `parseInt` reads as `NaN` is refused first. */
  function History(db: Db, rawId: string): (r: Outcome)
    ensures ParseInt(rawId).NotANumber? ==> r == Outcome(Fail(400, "Invalid user ID"), db)
    ensures ParseInt(rawId).Int? ==> r == HistoryFor(db, ParseInt(rawId).n) && r.response.status in {200, 500}
  {
    match ParseInt(rawId)
    case NotANumber => Outcome(Fail(400, "Invalid user ID"), db)
    case Int(id) => HistoryFor(db, id)
  }

  /**
   * What a successful history response lists (the body `HistoryFor` sends),
   * stated without the query: every consultation of the user appears, nothing
   * else does, and the list runs from the newest to the oldest.
   */
  lemma HistoryListsOwnConsultations(cs: seq<Consultation>, id: int)
    ensures var items := Project(HistoryRows(cs, id));
      && (forall i, j :: 0 <= i < j < |items| ==> items[i].createdAt >= items[j].createdAt)
      && (forall c :: c in cs && c.userId == id ==> View(c) in items)
      && (forall i :: 0 <= i < |items| ==> exists c :: c in cs && c.userId == id && items[i] == View(c))
  {
    RowsListed(cs, id);
    RowsOwned(cs, id);
  }

  lemma RowsListed(cs: seq<Consultation>, id: int)
    ensures forall c :: c in cs && c.userId == id ==> View(c) in Project(HistoryRows(cs, id))
  {
  }

  lemma RowsOwned(cs: seq<Consultation>, id: int)
    ensures var items := Project(HistoryRows(cs, id));
      forall i :: 0 <= i < |items| ==> exists c :: c in cs && c.userId == id && items[i] == View(c)
  {
  }

  /** Asking twice for the same history gives the same list, and the second request creates no user. */
  lemma HistoryStable(db: Db, id: int)
    requires FindUser(db.users, ById(id)).Some? || FindUser(db.users, ByEmail(Placeholder(id).email)).None?
    ensures var once := HistoryFor(db, id);
      HistoryFor(once.db, id) == once
  {
  }

  // ---------------------------------------------------------------------------
  // DELETE /api/consultation/:id
  // ---------------------------------------------------------------------------

  /** The response and both tables after a request. */
  datatype Outcome = Outcome(response: Response, db: Db)

  /** `DELETE /api/consultation/:id`: remove the consultation with that id, if there is one. */
  function Delete(db: Db, rawId: string): (r: Outcome)
    ensures ParseInt(rawId).NotANumber? ==> r == Outcome(Fail(400, "Invalid consultation ID"), db)
    ensures r.response.status == 404 <==>
      ParseInt(rawId).Int? && forall i :: 0 <= i < |db.consultations| ==> db.consultations[i].id != ParseInt(rawId).n
    ensures r.response.status == 404 ==> r == Outcome(Fail(404, "Consultation not found"), db)
    ensures r.response.status == 200 ==>
      && r.response.body == MessageBody("Consultation deleted successfully")
      && r.db.users == db.users
      && |r.db.consultations| == |db.consultations| - 1
      && exists c :: c in db.consultations && c.id == ParseInt(rawId).n
           && multiset(r.db.consultations) == multiset(db.consultations) - multiset{c}
    ensures ParseInt(rawId).Int? && (exists i :: 0 <= i < |db.consultations| && db.consultations[i].id == ParseInt(rawId).n) ==>
      r.response.status == 200
    ensures r.response.status != 200 ==> r.db == db
    ensures r.response.status in {200, 400, 404}
  {
    match ParseInt(rawId)
    case NotANumber => Outcome(Fail(400, "Invalid consultation ID"), db)
    case Int(id) =>
      match IndexOfConsultation(db.consultations, id)
      case None => Outcome(Fail(404, "Consultation not found"), db)
      case Some(i) =>
        RemoveAtFacts(db.consultations, i);
        Outcome(Response(200, MessageBody("Consultation deleted successfully")),
                db.(consultations := RemoveAt(db.consultations, i)))
  }

  /** The table without its row at position `i`. */
  function RemoveAt(cs: seq<Consultation>, i: nat): seq<Consultation>
    requires i < |cs|
  {
    cs[..i] + cs[i + 1..]
  }

  /** Removing the row at `i` removes exactly one occurrence of that row. */
  lemma RemoveAtFacts(cs: seq<Consultation>, i: nat)
    requires i < |cs|
    ensures |RemoveAt(cs, i)| == |cs| - 1
    ensures multiset(RemoveAt(cs, i)) == multiset(cs) - multiset{cs[i]}
  {
    assert cs == cs[..i] + [cs[i]] + cs[i + 1..];
  }

  /** With distinct ids, a deleted consultation is gone: deleting it again finds nothing. */
  lemma DeleteTwiceNotFound(db: Db, rawId: string)
    requires UniqueIds(db.consultations)
    requires Delete(db, rawId).response.status == 200
    ensures var once := Delete(db, rawId);
      Delete(once.db, rawId) == Outcome(Fail(404, "Consultation not found"), once.db)
  {
  }

  // ---------------------------------------------------------------------------
  // POST /api/beauty-advice
  // ---------------------------------------------------------------------------

  /** The largest decoded image the handler accepts: 5 MiB. */
  const MaxImageBytes: nat := 5 * 1024 * 1024

  const ImagePrefix := "data:image/"

  /** What `analyzeImageWithVision` did: threw, resolved with a falsy value, or resolved with a result. */
  datatype Analysis =
    | VisionThrew
    | NoAnalysis
    | Analysed(error: Option<string>, faces: Option<nat>)

  /**
   * What the calls after validation answered: whether the get-or-create of
   * the user completed, the image analysis, the text of the model's first
   * content block (absent when there is none), and whether saving the
   * consultation completed.
   */
  datatype Services = Services(userReady: bool, vision: Analysis, aiText: Option<string>, saved: bool)

  /** The consultation the handler stores: the image and prompt as sent and the advice received. */
  datatype Record = Record(imageUrl: string, prompt: Value, advice: string)

  datatype Advice = Advice(response: Response, record: Option<Record>)

  /** Which check decided the request, in the order the handler makes them. */
  datatype Verdict =
    | MissingInput          // imageUrl or prompt falsy
    | NotText               // imageUrl truthy but without `startsWith`
    | BadFormat             // not a `data:image/` URL
    | BadData               // nothing after the first comma
    | TooLarge              // decoded payload over 5 MiB
    | UserFault             // get-or-create of the user threw
    | VisionFault           // the analysis call threw
    | Unanalysed            // the analysis resolved with nothing
    | AnalysisFailed(reason: string)
    | NoFace
    | AiFault               // no advice text, or saving failed
    | Advised(advice: string)

  /** The base64 payload of a data URL: the text between its first and second comma, if it is non-empty. */
  predicate HasPayload(url: string)
  {
    SecondField(url, ',').Some? && SecondField(url, ',').value != ""
  }

  /** The request passes every check made before any service is called. */
  predicate Admissible(imageUrl: Value, prompt: Value, decodedLength: string -> nat)
  {
    && Truthy(imageUrl) && Truthy(prompt) && imageUrl.Str?
    && ImagePrefix <= imageUrl.s && HasPayload(imageUrl.s)
    && decodedLength(SecondField(imageUrl.s, ',').value) <= MaxImageBytes
  }

  /**
   * The checks of `POST /api/beauty-advice`, first failing one wins.
   * `decodedLength` is the length of `Buffer.from(data, 'base64')`.
   */
  function Classify(imageUrl: Value, prompt: Value, decodedLength: string -> nat, svc: Services): (v: Verdict)
    ensures v == MissingInput <==> !Truthy(imageUrl) || !Truthy(prompt)
    ensures v == NotText <==> Truthy(imageUrl) && Truthy(prompt) && !IsString(imageUrl)
    ensures v == BadFormat <==> Truthy(imageUrl) && Truthy(prompt) && imageUrl.Str? && !(ImagePrefix <= imageUrl.s)
    ensures v == BadData <==>
      Truthy(imageUrl) && Truthy(prompt) && imageUrl.Str? && ImagePrefix <= imageUrl.s && !HasPayload(imageUrl.s)
    ensures v == TooLarge <==>
      Truthy(imageUrl) && Truthy(prompt) && imageUrl.Str? && ImagePrefix <= imageUrl.s && HasPayload(imageUrl.s)
      && decodedLength(SecondField(imageUrl.s, ',').value) > MaxImageBytes
    ensures Admissible(imageUrl, prompt, decodedLength) <==> v !in {MissingInput, NotText, BadFormat, BadData, TooLarge}
    ensures v == UserFault <==> Admissible(imageUrl, prompt, decodedLength) && !svc.userReady
    ensures v == VisionFault <==> Admissible(imageUrl, prompt, decodedLength) && svc.userReady && svc.vision.VisionThrew?
    ensures v == Unanalysed <==> Admissible(imageUrl, prompt, decodedLength) && svc.userReady && svc.vision.NoAnalysis?
    ensures v.AnalysisFailed? <==>
      && Admissible(imageUrl, prompt, decodedLength) && svc.userReady
      && svc.vision.Analysed? && svc.vision.error.Some? && svc.vision.error.value != ""
    ensures v.AnalysisFailed? ==> svc.vision.Analysed? && svc.vision.error == Some(v.reason)
    ensures v == NoFace <==>
      && Admissible(imageUrl, prompt, decodedLength) && svc.userReady
      && svc.vision.Analysed? && (svc.vision.error.None? || svc.vision.error.value == "")
      && (svc.vision.faces.None? || svc.vision.faces.value == 0)
    ensures v == AiFault <==>
      && Admissible(imageUrl, prompt, decodedLength) && svc.userReady
      && svc.vision.Analysed? && (svc.vision.error.None? || svc.vision.error.value == "")
      && svc.vision.faces.Some? && svc.vision.faces.value > 0
      && (svc.aiText.None? || svc.aiText.value == "" || !svc.saved)
    ensures v.Advised? <==>
      && Admissible(imageUrl, prompt, decodedLength) && svc.userReady
      && svc.vision.Analysed? && (svc.vision.error.None? || svc.vision.error.value == "")
      && svc.vision.faces.Some? && svc.vision.faces.value > 0
      && svc.aiText.Some? && svc.aiText.value != "" && svc.saved
    ensures v.Advised? ==> v.advice == svc.aiText.value
  {
    if !Truthy(imageUrl) || !Truthy(prompt) then MissingInput
    else if !IsString(imageUrl) then NotText
    else if !(ImagePrefix <= imageUrl.s) then BadFormat
    else
      var parts := Split(imageUrl.s, ',');
      SplitSecond(imageUrl.s, ',');
      if |parts| < 2 || parts[1] == "" then BadData
      else if decodedLength(parts[1]) > MaxImageBytes then TooLarge
      else if !svc.userReady then UserFault
      else match svc.vision
        case VisionThrew => VisionFault
        case NoAnalysis => Unanalysed
        case Analysed(error, faces) =>
          if error.Some? && error.value != "" then AnalysisFailed(error.value)
          else if faces.None? || faces.value == 0 then NoFace
          else if svc.aiText.None? || svc.aiText.value == "" || !svc.saved then AiFault
          else Advised(svc.aiText.value)
  }

  /** The status and body the handler sends for each verdict. */
  function Respond(v: Verdict): (r: Response)
    ensures r.status == 200 <==> v.Advised?
    ensures r.status == 500 <==> v in {NotText, UserFault, VisionFault, AiFault}
    ensures r.status == 400 <==> !v.Advised? && v !in {NotText, UserFault, VisionFault, AiFault}
    ensures !v.Advised? ==> r.body.Failure?
    ensures v.Advised? ==> r.body == AdviceBody(v.advice)
  {
    match v
    case MissingInput => Fail(400, "Image and prompt are required")
    case NotText => Fail(500, "Internal server error")
    case BadFormat => Fail(400, "Invalid image format")
    case BadData => Fail(400, "Invalid image data")
    case TooLarge => Fail(400, "Image size must be less than 5MB")
    case UserFault => Fail(500, "Internal server error")
    case VisionFault => Fail(500, "Failed to analyze image with Vision API")
    case Unanalysed => Fail(400, "Failed to analyze image")
    case AnalysisFailed(reason) => Fail(400, "Image analysis failed: " + reason)
    case NoFace => Fail(400, "No face detected in the image. Please upload a clear photo of a face.")
    case AiFault => Fail(500, "Failed to get beauty advice from AI")
    case Advised(advice) => Response(200, AdviceBody(advice))
  }

  /** `POST /api/beauty-advice { userId, imageUrl, prompt }`: the response and the consultation stored, if any. */
  function BeautyAdvice(imageUrl: Value, prompt: Value, decodedLength: string -> nat, svc: Services): (a: Advice)
    ensures a.response.status == 200 <==> a.record.Some?
    ensures a.record.Some? ==>
      && imageUrl.Str? && svc.aiText.Some? && a.record.value == Record(imageUrl.s, prompt, svc.aiText.value)
      && a.response.body == AdviceBody(a.record.value.advice)
    ensures !Admissible(imageUrl, prompt, decodedLength) ==> a.record.None? && a.response.status in {400, 500}
    ensures
      && Admissible(imageUrl, prompt, decodedLength) && svc.userReady
      && svc.vision.Analysed? && (svc.vision.error.None? || svc.vision.error.value == "")
      && svc.vision.faces.Some? && svc.vision.faces.value > 0
      && svc.aiText.Some? && svc.aiText.value != "" && svc.saved
      ==>
      && a.response == Response(200, AdviceBody(svc.aiText.value))
      && a.record == Some(Record(imageUrl.s, prompt, svc.aiText.value))
  {
    var v := Classify(imageUrl, prompt, decodedLength, svc);
    Advice(Respond(v), if v.Advised? then Some(Record(imageUrl.s, prompt, v.advice)) else None)
  }

  /** A request refused by the input checks gets the same answer whatever the services would have said. */
  lemma RefusalIgnoresServices(imageUrl: Value, prompt: Value, decodedLength: string -> nat, svc: Services, svc2: Services)
    requires !Admissible(imageUrl, prompt, decodedLength)
    ensures BeautyAdvice(imageUrl, prompt, decodedLength, svc) == BeautyAdvice(imageUrl, prompt, decodedLength, svc2)
  {
  }

  /**
   * The error text of each refusal, stated on the request: the input checks
   * in the order the handler makes them, then the outcome of each service.
   */
  lemma AdviceErrorTexts(imageUrl: Value, prompt: Value, decodedLength: string -> nat, svc: Services)
    ensures var a := BeautyAdvice(imageUrl, prompt, decodedLength, svc).response;
      && (!Truthy(imageUrl) || !Truthy(prompt) ==> a == Fail(400, "Image and prompt are required"))
      && (Truthy(imageUrl) && Truthy(prompt) && !imageUrl.Str? ==> a == Fail(500, "Internal server error"))
      && (Truthy(prompt) && imageUrl.Str? && imageUrl.s != "" && !(ImagePrefix <= imageUrl.s) ==>
            a == Fail(400, "Invalid image format"))
      && (Truthy(prompt) && imageUrl.Str? && ImagePrefix <= imageUrl.s && !HasPayload(imageUrl.s) ==>
            a == Fail(400, "Invalid image data"))
      && (Truthy(prompt) && imageUrl.Str? && ImagePrefix <= imageUrl.s && HasPayload(imageUrl.s)
          && decodedLength(SecondField(imageUrl.s, ',').value) > MaxImageBytes ==>
            a == Fail(400, "Image size must be less than 5MB"))
    ensures Admissible(imageUrl, prompt, decodedLength) ==>
      var a := BeautyAdvice(imageUrl, prompt, decodedLength, svc).response;
      && (!svc.userReady ==> a == Fail(500, "Internal server error"))
      && (svc.userReady && svc.vision.VisionThrew? ==> a == Fail(500, "Failed to analyze image with Vision API"))
      && (svc.userReady && svc.vision.NoAnalysis? ==> a == Fail(400, "Failed to analyze image"))
      && (svc.userReady && svc.vision.Analysed? && svc.vision.error.Some? && svc.vision.error.value != "" ==>
            a == Fail(400, "Image analysis failed: " + svc.vision.error.value))
      && (svc.userReady && svc.vision.Analysed? && (svc.vision.error.None? || svc.vision.error.value == "")
          && (svc.vision.faces.None? || svc.vision.faces.value == 0) ==>
            a == Fail(400, "No face detected in the image. Please upload a clear photo of a face."))
      && (svc.userReady && svc.vision.Analysed? && (svc.vision.error.None? || svc.vision.error.value == "")
          && svc.vision.faces.Some? && svc.vision.faces.value > 0
          && (svc.aiText.None? || svc.aiText.value == "" || !svc.saved) ==>
            a == Fail(500, "Failed to get beauty advice from AI"))
  {
  }

  /** The size limit is inclusive: a payload of exactly 5 MiB passes, one byte more is refused. */
  lemma SizeLimitBoundary(url: string, prompt: Value, decodedLength: string -> nat, svc: Services)
    requires ImagePrefix <= url && HasPayload(url) && Truthy(prompt)
    ensures decodedLength(SecondField(url, ',').value) == MaxImageBytes ==>
      Classify(Str(url), prompt, decodedLength, svc) != TooLarge
    ensures decodedLength(SecondField(url, ',').value) == MaxImageBytes + 1 ==>
      BeautyAdvice(Str(url), prompt, decodedLength, svc).response == Fail(400, "Image size must be less than 5MB")
  {
  }
}

=== FILE: store.dfy ===
/**
 * The two tables the routes read and write, as sequences of rows, with the
 * lookups the handlers perform on them. Storage failures are not modelled:
 * every lookup answers and every write succeeds unless a uniqueness rule of
 * the schema refuses it.
 */
module Store {
  import opened Base

  /** A row of the `user` table; `email` is declared unique. */
  datatype User = User(id: int, name: string, email: string)

  /** A row of the `consultation` table; `userId` is the owning user's id. */
  datatype Consultation = Consultation(id: int, userId: int, imageUrl: string, prompt: string, advice: string, createdAt: int)

  /** The five fields the history endpoint returns for a consultation. */
  datatype ConsultationView = ConsultationView(id: int, imageUrl: string, prompt: string, advice: string, createdAt: int)

  /** Both tables. */
  datatype Db = Db(users: seq<User>, consultations: seq<Consultation>)

  /** What a user lookup searches by: `findOne({ where: { email } })` or `findOne({ where: { id } })`. */
  datatype UserKey = ByEmail(email: string) | ById(id: int)

  predicate Matches(u: User, key: UserKey)
  {
    match key
    case ByEmail(e) => u.email == e
    case ById(i) => u.id == i
  }

  /** The user a lookup by `key` returns, if any. */
  function FindUser(users: seq<User>, key: UserKey): (r: Option<User>)
    ensures r.Some? <==> exists i :: 0 <= i < |users| && Matches(users[i], key)
    ensures r.Some? ==> r.value in users && Matches(r.value, key)
  {
    if |users| == 0 then None
    else if Matches(users[0], key) then Some(users[0])
    else FindUser(users[1..], key)
  }

  /** The user found is the first match in table order. */
  lemma {:induction false} FindUserFirst(users: seq<User>, key: UserKey)
    requires FindUser(users, key).Some?
    ensures exists i ::
      && 0 <= i < |users| && users[i] == FindUser(users, key).value
      && forall j :: 0 <= j < i ==> !Matches(users[j], key)
  {
    if !Matches(users[0], key) {
      FindUserFirst(users[1..], key);
      var i :|
        && 0 <= i < |users| - 1 && users[1..][i] == FindUser(users, key).value
        && forall j :: 0 <= j < i ==> !Matches(users[1..][j], key);
      assert users[i + 1] == FindUser(users, key).value;
      assert forall j :: 1 <= j < i + 1 ==> users[j] == users[1..][j - 1];
    } else {
      assert users[0] == FindUser(users, key).value;
    }
  }

  /** The position of the first consultation with this id, if any. */
  function IndexOfConsultation(cs: seq<Consultation>, id: int): (r: Option<nat>)
    ensures r.None? <==> forall i :: 0 <= i < |cs| ==> cs[i].id != id
    ensures r.Some? ==> r.value < |cs| && cs[r.value].id == id
  {
    if |cs| == 0 then None
    else if cs[0].id == id then Some(0)
    else match IndexOfConsultation(cs[1..], id)
      case None => None
      case Some(i) => Some(i + 1)
  }

  /** Primary keys are distinct. */
  predicate UniqueIds(cs: seq<Consultation>)
  {
    forall i, j :: 0 <= i < j < |cs| ==> cs[i].id != cs[j].id
  }

  /** The consultations owned by `userId`, in table order. */
  function OwnedBy(cs: seq<Consultation>, userId: int): (r: seq<Consultation>)
    ensures forall c :: multiset(r)[c] == if c.userId == userId then multiset(cs)[c] else 0
  {
    if |cs| == 0 then []
    else
      assert cs == [cs[0]] + cs[1..];
      if cs[0].userId == userId then [cs[0]] + OwnedBy(cs[1..], userId) else OwnedBy(cs[1..], userId)
  }

  /** Newest first: `createdAt` never increases along the sequence. */
  predicate NewestFirstOrder(cs: seq<Consultation>)
  {
    forall i, j :: 0 <= i < j < |cs| ==> cs[i].createdAt >= cs[j].createdAt
  }

  function Insert(c: Consultation, s: seq<Consultation>): (r: seq<Consultation>)
    requires NewestFirstOrder(s)
    ensures NewestFirstOrder(r)
    ensures multiset(r) == multiset{c} + multiset(s)
    ensures forall x :: x in r ==> x == c || x in s
  {
    if |s| == 0 then [c]
    else if c.createdAt >= s[0].createdAt then [c] + s
    else
      assert s == [s[0]] + s[1..];
      var rest := Insert(c, s[1..]);
      assert forall x :: x in rest ==> x.createdAt <= s[0].createdAt;
      [s[0]] + rest
  }

  /** `orderBy('consultation.createdAt', 'DESC')`: a newest-first arrangement of the same rows. */
  function NewestFirst(cs: seq<Consultation>): (r: seq<Consultation>)
    ensures NewestFirstOrder(r)
    ensures multiset(r) == multiset(cs)
  {
    if |cs| == 0 then []
    else
      assert cs == [cs[0]] + cs[1..];
      Insert(cs[0], NewestFirst(cs[1..]))
  }

  function View(c: Consultation): ConsultationView
  {
    ConsultationView(c.id, c.imageUrl, c.prompt, c.advice, c.createdAt)
  }

  /** The mapping to `{id, imageUrl, prompt, advice, createdAt}`, one view per row, in row order. */
  function Project(cs: seq<Consultation>): (vs: seq<ConsultationView>)
    ensures |vs| == |cs|
    ensures forall i :: 0 <= i < |cs| ==> vs[i] == View(cs[i])
  {
    seq(|cs|, i requires 0 <= i < |cs| => View(cs[i]))
  }
}

=== FILE: webcam.dfy ===
/**
 * `WebcamStream`: a two-field lifecycle (`stream`, `isInitialized`) driven by
 * `start`, `stop` and `switchCamera`. The browser is an input: whether
 * `getUserMedia` exists, what it answers for the constraints, and whether
 * `video.play()` succeeds. Each operation returns the new pair of fields and
 * what the outside world saw: the constraints requested from the device, the
 * stream whose tracks were stopped, and the toast shown.
 */
module Webcam {
  import opened Base

  datatype FacingMode = User | Environment

  /** `WebcamOptions`: every field may be omitted. */
  datatype WebcamOptions = WebcamOptions(
    width: Option<int>,
    height: Option<int>,
    facingMode: Option<FacingMode>,
    frameRate: Option<int>)

  /** The `video` constraints passed to `getUserMedia`. */
  datatype Constraints = Constraints(idealWidth: int, idealHeight: int, facingMode: FacingMode, idealFrameRate: int)

  /** A media stream, known here only by the facing mode its first video track reports, if any. */
  datatype Stream = Stream(reportedFacing: Option<string>)

  /** The two fields of a `WebcamStream`. */
  datatype Webcam = Webcam(stream: Option<Stream>, initialized: bool)

  /** The camera before `start`: no stream, not initialised. */
  const Fresh := Webcam(None, false)

  /** What `catch (error)` receives: an `Error` with its `name`, or some other thrown value. */
  datatype Thrown = Named(name: string) | NotAnError

  /** What `getUserMedia(constraints)` does: resolve with a stream or reject. */
  datatype Acquisition = Granted(stream: Stream) | Refused(error: Thrown)

  /** What `video.play()` does. */
  datatype Playback = Playing | PlayRejected(error: Thrown)

  /** The browser as this call sees it. */
  datatype Browser = Browser(hasGetUserMedia: bool, acquisition: Acquisition, playback: Playback)

  datatype Toast = Toast(destructive: bool, title: string, description: string)

  /** The result of `start`: the new fields, the promise's boolean, the device request made (if any), and the toast shown (if any). */
  datatype Started = Started(cam: Webcam, ok: bool, request: Option<Constraints>, toast: Option<Toast>)

  /** The result of `stop`: the new fields and the stream whose tracks were stopped (if any). */
  datatype Stopped = Stopped(cam: Webcam, released: Option<Stream>)

  /** The result of `switchCamera`: the `stop` it performs, then the `start` it performs. */
  datatype Switched = Switched(stopped: Stopped, started: Started)

  const DefaultWidth := 1280
  const DefaultHeight := 720
  const DefaultFrameRate := 30

  const PermissionDenied := "Camera permission was denied. Please allow camera access to use this feature."
  const NoCamera := "No camera detected. Please connect a camera and try again."
  const CameraBusy := "Camera is already in use by another application."
  const GenericFailure := "Failed to access webcam"

  const GrantedToast := Toast(false, "Camera Access Granted", "Your webcam has been successfully initialized.")

  /** `isActive()`. */
  predicate IsActive(cam: Webcam)
  {
    cam.initialized && cam.stream.Some?
  }

  /** The state every operation keeps: an initialised webcam holds a stream. */
  predicate Valid(cam: Webcam)
  {
    cam.initialized ==> cam.stream.Some?
  }

  /** `n || d` for an optional number: absent or `0` falls back to `d`. */
  function OrDefault(n: Option<int>, d: int): (r: int)
    ensures n.Some? && n.value != 0 ==> r == n.value
    ensures n.None? || n.value == 0 ==> r == d
  {
    if n.Some? && n.value != 0 then n.value else d
  }

  /** The constraints `start` builds: each omitted or zero hint is replaced by its default. */
  function Resolve(opts: WebcamOptions): (c: Constraints)
    ensures c.idealWidth == OrDefault(opts.width, DefaultWidth)
    ensures c.idealHeight == OrDefault(opts.height, DefaultHeight)
    ensures c.idealFrameRate == OrDefault(opts.frameRate, DefaultFrameRate)
    ensures c.facingMode == if opts.facingMode.Some? then opts.facingMode.value else User
  {
    Constraints(
      OrDefault(opts.width, DefaultWidth),
      OrDefault(opts.height, DefaultHeight),
      if opts.facingMode.Some? then opts.facingMode.value else User,
      OrDefault(opts.frameRate, DefaultFrameRate))
  }

  /** The description of the error toast for a failed `start`. */
  function ErrorMessage(e: Thrown): (m: string)
    ensures m == PermissionDenied <==> e in {Named("NotAllowedError"), Named("PermissionDeniedError")}
    ensures m == NoCamera <==> e == Named("NotFoundError")
    ensures m == CameraBusy <==> e == Named("NotReadableError")
    ensures m == GenericFailure <==>
      e !in {Named("NotAllowedError"), Named("PermissionDeniedError"), Named("NotFoundError"), Named("NotReadableError")}
  {
    match e
    case NotAnError => GenericFailure
    case Named(name) =>
      if name == "NotAllowedError" || name == "PermissionDeniedError" then PermissionDenied
      else if name == "NotFoundError" then NoCamera
      else if name == "NotReadableError" then CameraBusy
      else GenericFailure
  }

  function Failed(cam: Webcam, request: Option<Constraints>, e: Thrown): Started
  {
    Started(cam, false, request, Some(Toast(true, "Camera Error", ErrorMessage(e))))
  }

  /**
   * `start(options)`. An initialised webcam answers `true` at once. Otherwise
   * the constraints are built; a browser without `getUserMedia` fails with a
   * plain `Error` before asking for anything; a refused request leaves the
   * fields as they were; a stream is stored as soon as it is granted, so a
   * rejected `play()` leaves it held while `isInitialized` stays false.
   */
  function Start(cam: Webcam, opts: WebcamOptions, browser: Browser): (r: Started)
    ensures cam.initialized ==> r == Started(cam, true, None, None)
    ensures !cam.initialized && browser.hasGetUserMedia ==> r.request == Some(Resolve(opts))
    ensures !browser.hasGetUserMedia ==> r.request == None
    ensures r.ok <==> cam.initialized || (browser.hasGetUserMedia && browser.acquisition.Granted? && browser.playback.Playing?)
    ensures r.ok <==> r.cam.initialized
    ensures !r.ok ==> r.cam.stream == (if browser.hasGetUserMedia && browser.acquisition.Granted? then Some(browser.acquisition.stream) else cam.stream)
    ensures !cam.initialized && r.ok ==> r.cam == Webcam(Some(browser.acquisition.stream), true) && r.toast == Some(GrantedToast)
    ensures !r.ok ==> r.toast == Some(Toast(true, "Camera Error", ErrorMessage(
      if !browser.hasGetUserMedia then Named("Error")
      else if browser.acquisition.Refused? then browser.acquisition.error
      else browser.playback.error)))
    ensures Valid(cam) ==> Valid(r.cam)
  {
    if cam.initialized then Started(cam, true, None, None)
    else
      var c := Resolve(opts);
      if !browser.hasGetUserMedia then Failed(cam, None, Named("Error"))
      else
        match browser.acquisition
        case Refused(e) => Failed(cam, Some(c), e)
        case Granted(s) =>
          var held := cam.(stream := Some(s));
          match browser.playback
          case PlayRejected(e) => Failed(held, Some(c), e)
          case Playing => Started(held.(initialized := true), true, Some(c), Some(GrantedToast))
  }

  /** `stop()`: when a stream is held, stop its tracks and clear both fields; otherwise do nothing. */
  function Stop(cam: Webcam): (r: Stopped)
    ensures r.cam == Fresh || (cam.stream.None? && r.cam == cam)
    ensures r.released == cam.stream
    ensures Valid(cam) ==> r.cam == Fresh && !IsActive(r.cam)
  {
    if cam.stream.Some? then Stopped(Fresh, cam.stream) else Stopped(cam, None)
  }

  /** The facing mode `switchCamera` asks for: `environment` exactly when the current track reports `user`. */
  function Flip(current: Option<string>): (f: FacingMode)
    ensures f == Environment <==> current == Some("user")
  {
    if current == Some("user") then Environment else User
  }

  /** A `start` together with the stream whose tracks it stopped first, if any. */
  datatype Guarded = Guarded(released: Option<Stream>, started: Started)

  /**
   * `start` as evidently intended: a stream still held from an earlier
   * attempt whose `play()` was rejected is stopped before a new one is
   * requested, so no stream is dropped while its tracks are live. Where no
   * stream is held it is exactly `Start`.
   */
  function StartReleasingHeld(cam: Webcam, opts: WebcamOptions, browser: Browser): (r: Guarded)
    ensures cam.stream.None? ==> r == Guarded(None, Start(cam, opts, browser))
    ensures cam.stream.Some? ==> r.started.cam.stream == cam.stream || r.released == cam.stream
    ensures r.started.ok <==> cam.initialized || (browser.hasGetUserMedia && browser.acquisition.Granted? && browser.playback.Playing?)
    ensures r.started.ok <==> r.started.cam.initialized
    ensures Valid(cam) ==> Valid(r.started.cam)
  {
    if cam.initialized then Guarded(None, Start(cam, opts, browser))
    else
      var pre := Stop(cam);
      Guarded(pre.released, Start(pre.cam, opts, browser))
  }

  /**
   * `switchCamera()`: read the facing mode the current stream's first video
   * track reports, stop, and start again asking for the other one. Only the
   * facing mode is passed, so the other hints fall back to their defaults.
   * After `stop` no stream is held, so `StartReleasingHeld` here behaves as
   * the code's `start` does.
   */
  function SwitchCamera(cam: Webcam, browser: Browser): (r: Switched)
    ensures r.stopped == Stop(cam)
    ensures r.started.request.Some? ==> r.started.request.value.facingMode == Flip(if cam.stream.Some? then cam.stream.value.reportedFacing else None)
  {
    var current := if cam.stream.Some? then cam.stream.value.reportedFacing else None;
    var stopped := Stop(cam);
    Switched(stopped, StartReleasingHeld(stopped.cam, WebcamOptions(None, None, Some(Flip(current)), None), browser).started)
  }

  // ---------------------------------------------------------------------------
  // Lifecycle properties
  // ---------------------------------------------------------------------------

  /** `isActive()` is exactly `isInitialized` for every reachable webcam. */
  lemma ActiveIsInitialized(cam: Webcam)
    requires Valid(cam)
    ensures IsActive(cam) <==> cam.initialized
  {
  }

  /** A successful `start` leaves the webcam active; a failed one leaves it inactive. */
  lemma StartActivates(cam: Webcam, opts: WebcamOptions, browser: Browser)
    requires Valid(cam)
    ensures IsActive(Start(cam, opts, browser).cam) <==> Start(cam, opts, browser).ok
  {
  }

  /** A second `start` after a successful one changes nothing and asks the device for nothing. */
  lemma StartIdempotent(cam: Webcam, opts: WebcamOptions, opts2: WebcamOptions, browser: Browser, browser2: Browser)
    requires Start(cam, opts, browser).ok
    ensures var again := Start(Start(cam, opts, browser).cam, opts2, browser2);
      again.cam == Start(cam, opts, browser).cam && again.ok && again.request == None && again.toast == None
  {
  }

  /** `stop` twice is `stop` once, and the second one releases nothing. */
  lemma StopIdempotent(cam: Webcam)
    ensures Stop(Stop(cam).cam).cam == Stop(cam).cam
    ensures Stop(cam).released.Some? ==> Stop(Stop(cam).cam).released == None
  {
  }

  /**
   * When `play()` is rejected the granted stream stays held though the webcam
   * is not active, and the next `stop` is what releases it.
   */
  lemma RejectedPlayHoldsStream(cam: Webcam, opts: WebcamOptions, s: Stream, e: Thrown)
    requires !cam.initialized
    ensures var r := Start(cam, opts, Browser(true, Granted(s), PlayRejected(e)));
      && !r.ok && r.cam.stream == Some(s) && !IsActive(r.cam)
      && Stop(r.cam).released == Some(s) && Stop(r.cam).cam == Fresh
  {
  }

  /**
   * The code's `start` drops a stream left held by a rejected `play()`: a
   * retry that succeeds overwrites it, so only the new stream is ever
   * released and the first one's tracks stay live.
   */
  lemma RetryDropsHeldStream(opts: WebcamOptions, s0: Stream, s1: Stream, e: Thrown)
    requires s0 != s1
    ensures var first := Start(Fresh, opts, Browser(true, Granted(s0), PlayRejected(e)));
      var second := Start(first.cam, opts, Browser(true, Granted(s1), Playing));
      && first.cam.stream == Some(s0) && !first.ok
      && second.ok && second.cam == Webcam(Some(s1), true)
      && Stop(second.cam).released == Some(s1) && Stop(second.cam).cam == Fresh
  {
  }

  /** With the held stream stopped first, the same retry releases the first stream and holds the second. */
  lemma RetryReleasesHeldStream(opts: WebcamOptions, s0: Stream, s1: Stream, e: Thrown)
    ensures var first := Start(Fresh, opts, Browser(true, Granted(s0), PlayRejected(e)));
      var second := StartReleasingHeld(first.cam, opts, Browser(true, Granted(s1), Playing));
      && second.released == Some(s0)
      && second.started.ok && second.started.cam == Webcam(Some(s1), true)
  {
  }

  /**
   * `stop` right after a successful `start` releases exactly the stream that
   * was granted, and a later `start` asks the device again.
   */
  lemma StartStopStart(opts: WebcamOptions, s: Stream, browser: Browser)
    requires Start(Fresh, opts, Browser(true, Granted(s), Playing)).ok
    ensures var up := Start(Fresh, opts, Browser(true, Granted(s), Playing));
      && Stop(up.cam).released == Some(s)
      && (browser.hasGetUserMedia ==> Start(Stop(up.cam).cam, opts, browser).request == Some(Resolve(opts)))
  {
  }

  /**
   * `switchCamera` releases the held stream and, when the browser has
   * `getUserMedia`, asks for the other facing mode with default size and rate.
   */
  lemma SwitchRequestsOtherSide(cam: Webcam, browser: Browser)
    requires Valid(cam)
    ensures var r := SwitchCamera(cam, browser);
      var current := if cam.stream.Some? then cam.stream.value.reportedFacing else None;
      && r.stopped.released == cam.stream
      && (browser.hasGetUserMedia ==>
            r.started.request == Some(Constraints(DefaultWidth, DefaultHeight, if current == Some("user") then Environment else User, DefaultFrameRate)))
      && (r.started.ok <==> browser.hasGetUserMedia && browser.acquisition.Granted? && browser.playback.Playing?)
      && (r.started.ok ==> r.started.cam == Webcam(Some(browser.acquisition.stream), true) && r.started.toast == Some(GrantedToast))
      && (!r.started.ok ==> !IsActive(r.started.cam) && r.started.toast == Some(Toast(true, "Camera Error", ErrorMessage(
            if !browser.hasGetUserMedia then Named("Error")
            else if browser.acquisition.Refused? then browser.acquisition.error
            else browser.playback.error))))
  {
  }

  /** Every operation keeps an initialised webcam holding a stream. */
  lemma OperationsKeepValid(cam: Webcam, opts: WebcamOptions, browser: Browser)
    requires Valid(cam)
    ensures Valid(Start(cam, opts, browser).cam)
    ensures Valid(Stop(cam).cam)
    ensures Valid(SwitchCamera(cam, browser).started.cam)
  {
  }
}
